=== FILE: README.md ===
# Role visibility and lifecycle in the Impostor game server

This project models, in Dafny, how the Impostor server decides which client
sees which role for which character, and how a character's lifecycle moves
(murder, protection, exile, outfit changes). It covers two C# files:

- `RoleManager.cs` is the custom role engine. It has single-recipient and
  all-but-host role sends and the desynchronised sweep with its impostor-team
  overlay. It also has the bulk operations built on them: game-start
  assignment, resync, host migration, data sync and the two-phase black-screen
  fix.
- `InnerPlayerControl.Api.cs` is the character's own API. It holds an older
  revision of the same role sends (no host check, no overlay; its plain
  role send goes to every client, the host's included), the outfit setters, and the murder, protect and exile transitions.

The model is purely functional. A `Game` holds the client roster (each
client's id and optional character NetId), the host's client id, and the
`PlayerInfo` of each character. Every operation returns an `Outcome`, which
holds:

- the new game;
- one ordered log of effects: a write of a `PlayerInfo`, a message handed to
  the transport, or an event handed to observers;
- the error that stopped it, if any.

`Replay` rebuilds a state from a log. This turns orderings into statements:
for example, "the target is dead when the RPC goes out" says something about
the replay of the log prefix before that send. A message is an abstract record
with a recipient mode (everyone, all but one client, one client), the subject
NetId, an optional `PlayerInfo` snapshot and an optional RPC call. Nothing is
serialised.

Other modelling choices:

- An `await` is a sequential step.
- A fire-and-forget call (`_ = …`) keeps its effects and drops its error. An
  awaited call passes its error on.
- A null host dereference is the error `NoHost`.
- `First(...)` finding no client is the error `Unrouted`.
- A rejected transition (`ImpostorProtocolException`) is `Protocol(v)`: no
  state change, no message, no event.
- The two `Task.Delay`s of the black-screen fix are phase boundaries. The fix
  takes the game as it is at the head count, after the first delay and after
  the second delay.

Modules:

- `GameState` (state.dfy): roster, player info, routing from a character to
  its client.
- `Effects` (effects.dfy): messages, events, the effect log and its replay.
- `Dispatch` (dispatch.dfy): the framed role send and the desync sweep, shared
  by both revisions.
- `RoleManager` (role_manager.dfy) and `RoleManagerProofs`
  (role_manager_proofs.dfy): the role engine and what its operations promise.
- `PlayerControl` (player_control.dfy) and `PlayerControlProofs`
  (player_control_proofs.dfy): the older API revision, the transitions, and
  how the two revisions compare.

The model follows the code as written:

- After an introduction, `Disconnected` is set to `false`. It is not restored
  to its prior value, and there is no `finally`. In the role engine's
  `SetRoleAsync`, a missing host faults after the flag was set, so the flag
  stays true.
- No role send writes `RoleType`; the role a client is shown travels in
  the SetRole call. This follows the code as written: an introduction's
  snapshot is the subject's whole `PlayerInfo`, so it carries the true
  `RoleType` and `IsImpostor` to every client it reaches. At game start
  that includes clients whose SetRole call shows the subject as Crewmate
  (`RoleManagerProofs.AssignRolesOthersView`).
- Black-screen stand-ins are not distinct. Each player gets the first
  eligible roster entry, so several players can share one stand-in
  (`RoleManagerProofs.StandInShared`). The players given a stand-in are not
  required to be alive.
- A failed client lookup is not skipped per recipient.
  - In the single sends, it is an error.
  - In the black-screen fix and in game-start assignment, the call is
    fire-and-forget, so the error is dropped.
  - In the desync sweep, it cannot happen, because every recipient comes from
    the roster that the lookup searches.
- `ResyncRoles` stops at the first player without a character or role
  (`return`). It does not skip that player.

## Model

| member | source | states |
|---|---|---|
| Dispatch.Exclusions | src/Impostor.Server/Custom/RoleManager.cs:208-214 | A null exclusion entry stands for the subject; every other entry excludes its own character |
| Dispatch.Recipients | src/Impostor.Server/Custom/RoleManager.cs:216-221 | The sweep reaches exactly the roster characters outside the exclusion list |
| Dispatch.RecipientsDistinct | src/Impostor.Server/Custom/RoleManager.cs:216-221 | When no character appears twice on the roster, no character is reached twice |
| Dispatch.FramedSetRole | src/Impostor.Server/Custom/RoleManager.cs:178-201 | One SetRole message goes out. An introduction carries the Disconnected-true snapshot and leaves the flag false; otherwise the game is untouched |
| Dispatch.SweepSends | src/Impostor.Server/Custom/RoleManager.cs:216-252 | One message per recipient, in roster order, each to the recipient's own client, carrying the role shown to that recipient |
| Dispatch.SweepState | src/Impostor.Server/Custom/RoleManager.cs:225-249 | After a sweep only the subject's Disconnected flag can differ, and it is false once any introduction went out |
| RoleManager.SetRole | src/Impostor.Server/Custom/RoleManager.cs:135-164 | With a host: one message to all clients but the host, and an introduction leaves only the subject's Disconnected flag changed, to false. Without a host: NoHost, no message, and an introduction leaves only that flag changed, stuck true. RoleType is never written |
| RoleManager.SetRoleFor | src/Impostor.Server/Custom/RoleManager.cs:166-204 | No host: NoHost with no effect. Target equal to the host's character: no effect. Otherwise exactly one message to the client controlling the target (the subject when null), after which an introduction leaves only the subject's Disconnected flag changed, to false; or Unrouted when none does, with that flag left stuck true |
| RoleManager.SetRoleForDesync | src/Impostor.Server/Custom/RoleManager.cs:206-253 | The sweep never faults, raises no event, and changes at most Disconnected flags |
| RoleManager.AssignRoles | src/Impostor.Server/Custom/RoleManager.cs:119-133 | Game start raises no error or event and changes at most Disconnected flags |
| RoleManager.ResyncRoles | src/Impostor.Server/Custom/RoleManager.cs:52-63 | Resync writes nothing and raises no event |
| RoleManager.MigrateHostExtension | src/Impostor.Server/Custom/RoleManager.cs:15-33 | Host migration has no effect at all: no message, no write, no error |
| RoleManager.MigrateFrom | src/Impostor.Server/Custom/RoleManager.cs:24-32 | Every re-send targets the host's own character, so each one hits the host no-op |
| RoleManager.SyncData | src/Impostor.Server/Custom/RoleManager.cs:35-50 | Data sync writes nothing, raises no event and never faults |
| RoleManager.StandIn | src/Impostor.Server/Custom/RoleManager.cs:89-95 | None exactly when no roster entry is eligible (active, not the player, not the exiled one); otherwise an eligible entry's character |
| RoleManager.FirstEligible | src/Impostor.Server/Custom/RoleManager.cs:89-95 | The scan from entry k finds an eligible entry exactly when one exists, given none before k |
| RoleManager.GrantFrom | src/Impostor.Server/Custom/RoleManager.cs:81-104 | The grant phase never faults, writes nothing, raises no event, and records only stand-ins that have a PlayerInfo |
| RoleManager.RevertEach | src/Impostor.Server/Custom/RoleManager.cs:106-114 | The revert phase never faults, writes nothing and raises no event |
| RoleManager.FixBlackScreen | src/Impostor.Server/Custom/RoleManager.cs:65-117 | The fix is skipped exactly when active non-impostors are no more numerous than active impostors. Otherwise both phases run error-free, event-free, and leave their states unchanged |
| RoleManagerProofs.DesyncMessages | src/Impostor.Server/Custom/RoleManager.cs:238-240 | An impostor recipient of an impostor subject is shown ImpostorGhost if the subject is dead, else Impostor; every other recipient is shown the caller's role; one message per non-excluded roster character, in order |
| RoleManagerProofs.DesyncExactlyOnce | src/Impostor.Server/Custom/RoleManager.cs:216-244 | In a valid game each reached client gets exactly one message, and no excluded character's client gets any |
| RoleManagerProofs.IntroFraming | src/Impostor.Server/Custom/RoleManager.cs:139-161 | The snapshot is sent from a state where the subject is Disconnected; the flag ends false and RoleType is unchanged |
| RoleManagerProofs.SetRoleForOwner | src/Impostor.Server/Custom/RoleManager.cs:173-196 | In a valid game the one message goes to the client that owns the target, or the subject's own client for a null target |
| RoleManagerProofs.AssignRolesSends | src/Impostor.Server/Custom/RoleManager.cs:119-130 | The set of messages sent is exactly: each non-host ready player's true role to its own client, and, for each ready player, Crewmate with the impostor-team overlay to every other spawned non-host character's client |
| RoleManagerProofs.AssignRolesOthersView | src/Impostor.Server/Custom/RoleManager.cs:119-130 | For a client that does not control a message's subject, the SetRole call shows that subject as Crewmate, or as Impostor/ImpostorGhost when both characters are impostors; the framing snapshot is still the subject's own info, true role included |
| RoleManagerProofs.ResyncPrefix | src/Impostor.Server/Custom/RoleManager.cs:54-61 | From entry k, the true roles of the ready run of entries go all-but-host in order, and nothing follows the first entry that is not ready |
| RoleManagerProofs.ResyncRolesPrefix | src/Impostor.Server/Custom/RoleManager.cs:52-63 | Resync sends exactly the leading ready players' roles to all but the host, stopping at the first player without a character, a PlayerInfo or a role; nothing with no host |
| RoleManagerProofs.SyncDataSends | src/Impostor.Server/Custom/RoleManager.cs:35-50 | One snapshot per spawned roster character, in order, to all but the host; nothing with no host |
| RoleManagerProofs.GrantPairs | src/Impostor.Server/Custom/RoleManager.cs:81-104 | A pair is recorded exactly for each non-host, non-impostor spawned character that has a stand-in, with its first eligible stand-in |
| RoleManagerProofs.GrantSendsNoHost | src/Impostor.Server/Custom/RoleManager.cs:102 | With no host every grant send faults before any effect, so nothing is sent |
| RoleManagerProofs.GrantSends | src/Impostor.Server/Custom/RoleManager.cs:102-103 | Each recorded pair gets exactly one Impostor message on the stand-in, sent to the player's client, in order |
| RoleManagerProofs.RevertSendsBound | src/Impostor.Server/Custom/RoleManager.cs:106-114 | The revert phase sends at most one message per pair, and nothing with no host |
| RoleManagerProofs.RevertSends | src/Impostor.Server/Custom/RoleManager.cs:108-113 | Each pair gets exactly one revert: CrewmateGhost if the stand-in is dead by then, else Crewmate, to the player's client |
| RoleManagerProofs.FixBlackScreenSends | src/Impostor.Server/Custom/RoleManager.cs:65-117 | A run's pairs are those of the grant-phase roster; with a host, the grant phase sends one Impostor message per pair; when every recorded player is still on a non-host client, the revert phase sends one message per pair |
| RoleManagerProofs.StandInShared | src/Impostor.Server/Custom/RoleManager.cs:89-95 | Two players whose first eligible entry is the same get the same stand-in: stand-ins are not distinct |
| PlayerControl.SetRole | src/Impostor.Server/Net/Inner/Objects/InnerPlayerControl.Api.cs:87-113 | One SetRole message to every client, the host's included; an introduction leaves Disconnected false; RoleType is unchanged |
| PlayerControl.SetRoleFor | src/Impostor.Server/Net/Inner/Objects/InnerPlayerControl.Api.cs:115-146 | The client lookup comes first: an unrouted target faults with no effect; otherwise one message to the target's client (self when null); no host check |
| PlayerControl.SetRoleForDesync | src/Impostor.Server/Net/Inner/Objects/InnerPlayerControl.Api.cs:148-190 | The older sweep never faults, raises no event, and changes at most Disconnected flags |
| PlayerControl.SetName | src/Impostor.Server/Net/Inner/Objects/InnerPlayerControl.Api.cs:23-30 | Only the name changes, and it is written before the one SetName RPC goes out |
| PlayerControl.SetColor | src/Impostor.Server/Net/Inner/Objects/InnerPlayerControl.Api.cs:32-39 | Only the colour changes, and it is written before the one SetColor RPC goes out |
| PlayerControl.SetHat | src/Impostor.Server/Net/Inner/Objects/InnerPlayerControl.Api.cs:41-48 | Only the hat changes, and it is written before the one SetHat RPC goes out |
| PlayerControl.SetPet | src/Impostor.Server/Net/Inner/Objects/InnerPlayerControl.Api.cs:50-57 | Only the pet changes, and it is written before the one SetPet RPC goes out |
| PlayerControl.SetSkin | src/Impostor.Server/Net/Inner/Objects/InnerPlayerControl.Api.cs:59-66 | Only the skin changes, and it is written before the one SetSkin RPC goes out |
| PlayerControl.MurderPlayer | src/Impostor.Server/Net/Inner/Objects/InnerPlayerControl.Api.cs:192-219 | Rejected with no effect when the murderer is not an impostor, is dead, or the target is dead, in that order, and accepted otherwise. A non-failed result kills the target with Kill before the one RPC; a failed result changes nothing; the murder event comes last |
| PlayerControl.MurderPlayerSucceeded | src/Impostor.Server/Net/Inner/Objects/InnerPlayerControl.Api.cs:221-224 | An accepted murder with the default result leaves the target dead by Kill |
| PlayerControl.ProtectPlayer | src/Impostor.Server/Net/Inner/Objects/InnerPlayerControl.Api.cs:226-238 | Rejected with no effect exactly when the target is a GuardianAngel; otherwise the protector is recorded, then one RPC carrying the protector's outfit colour goes out; no event |
| PlayerControl.Exile | src/Impostor.Server/Net/Inner/Objects/InnerPlayerControl.Api.cs:240-257 | Rejected with no effect exactly when already dead; otherwise death by Exile, then the Exiled RPC, then the exile event |
| PlayerControlProofs.ExileOnce | src/Impostor.Server/Net/Inner/Objects/InnerPlayerControl.Api.cs:242-248 | After an exile, a second exile is rejected and changes nothing |
| PlayerControlProofs.NoDoubleMurder | src/Impostor.Server/Net/Inner/Objects/InnerPlayerControl.Api.cs:204-211 | After a non-failed murder, any later murder of the same target is rejected with no effect |
| PlayerControlProofs.NoExileAfterMurder | src/Impostor.Server/Net/Inner/Objects/InnerPlayerControl.Api.cs:209-211 | A murdered character can no longer be exiled |
| PlayerControlProofs.FailedMurderKeepsState | src/Impostor.Server/Net/Inner/Objects/InnerPlayerControl.Api.cs:209-218 | A failed murder changes nothing yet still emits the one RPC and the event |
| PlayerControlProofs.KillVisibleAtRpc | src/Impostor.Server/Net/Inner/Objects/InnerPlayerControl.Api.cs:209-216 | When the MurderPlayer RPC is sent, the target is already dead with reason Kill |
| PlayerControlProofs.NameAndHatCommute | src/Impostor.Server/Net/Inner/Objects/InnerPlayerControl.Api.cs:23-48 | Setting the name and the hat in either order leaves the same game |
| PlayerControlProofs.ColorAndSkinCommute | src/Impostor.Server/Net/Inner/Objects/InnerPlayerControl.Api.cs:32-66 | Setting the colour and the skin in either order leaves the same game |
| PlayerControlProofs.PetLastWriteWins | src/Impostor.Server/Net/Inner/Objects/InnerPlayerControl.Api.cs:50-57 | A second pet change overrides the first |
| PlayerControlProofs.SetRoleIntroFraming | src/Impostor.Server/Net/Inner/Objects/InnerPlayerControl.Api.cs:91-112 | The broadcast introduction is sent from a state where the subject is Disconnected; the flag ends false and RoleType is unchanged |
| PlayerControlProofs.SetRoleRevisions | src/Impostor.Server/Net/Inner/Objects/InnerPlayerControl.Api.cs:107 | The two SetRole revisions send the same message and leave the same game, except that the older one goes to everyone and the newer one to all but the host |
| PlayerControlProofs.HostCheckOnlyInNewer | src/Impostor.Server/Custom/RoleManager.cs:168-171 | Addressed to the host's character, the newer single send does nothing while the older one delivers to the host's client |
| PlayerControlProofs.UnroutedRevisions | src/Impostor.Server/Net/Inner/Objects/InnerPlayerControl.Api.cs:117-122 | For an unowned target the older send faults before any effect; the newer one faults after opening the introduction |
| PlayerControlProofs.DesyncWithoutOverlay | src/Impostor.Server/Net/Inner/Objects/InnerPlayerControl.Api.cs:150-183 | The older sweep sends the caller's role unchanged, one message per non-excluded roster character, in order, to that character's client |
| PlayerControlProofs.DesyncRevisionsAgree | src/Impostor.Server/Custom/RoleManager.cs:238-240 | For a subject that is not an impostor, the overlay never applies and both revisions' sweeps send the same messages |

## Left out

- Byte encoding: `StartMessage`/`EndMessage`, `WritePacked`, the `Rpc*`
  serialisers and `PlayerInfo.SerializeAsync`. A message is an abstract record
  and a snapshot is the `PlayerInfo` value itself.
- Transport and events: `FinishGameDataAsync`, `SendToAllExceptAsync`,
  `FinishRpcAsync` and the event manager are appends to the log. Delivery
  failures are not modelled.
- Timing and concurrency: the delays are phase boundaries, and the 200 ms
  delay at the end of `AssignRoles` has no effect. Fire-and-forget role
  sends run sequentially, in issue order. Their interleaving with each other
  and with other game traffic is not modelled.
- `SendChatAsync` and `SendChatToPlayerAsync` (chat RPCs), and
  `StartVanishAsync` and `StartAppearAsync` (Phantom RPCs): these are role-
  and state-free broadcasts outside role visibility and lifecycle.
- The event payloads' client lookups (`GetClientPlayer(OwnerId)`): an event
  records only the characters involved.
- Null `PlayerInfo` on a spawned character. Resync and host migration
  handle it as the code does (stop, and skip). The black-screen head count
  leaves such characters out, as its filter does (RoleManager.cs:69). The
  older desync sweep reads only the caller's info, so it needs nothing of
  the recipients. The remaining operations require every roster character
  to have its info (`Spawned`), because the code dereferences it there.
  The newer desync sweep, and game-start assignment through it, read each
  recipient's `IsImpostor` (RoleManager.cs:238-240). Data sync reads each
  character's info (RoleManager.cs:43-44). The grant phase and its
  stand-in search read `IsImpostor`, `IsDead` and `Disconnected`
  (RoleManager.cs:81-92).
- `SetRoleForDesync`, in both revisions, replaces each null entry of the
  caller's `targets` array by the subject in place (RoleManager.cs:208-214,
  InnerPlayerControl.Api.cs:150-156). The model's `Exclusions` is a pure
  function, so that rewrite of the caller's array is not modelled.
- `game.Players` (read by the sweeps and by the client lookup of the single
  sends) and `game.ClientPlayers` (read by game-start assignment, resync,
  migration, data sync and the black-screen fix) are one roster `players`,
  in one order.
- The snapshot's `PlayerInfo.NetId` is taken to be the character's NetId,
  the message's `subject`; the two are not told apart.
- `IsImpostor`, `Die`, `Protect` and `IsFailed` are defined outside
  RoleManager.cs and InnerPlayerControl.Api.cs. The model gives them the
  meaning their names and call sites imply: a stored flag, a death with a
  reason, a recorded protector, and "FailedError or FailedProtected set".
- Duplicate roster characters would collapse keys of the black-screen
  dictionary. The proofs about the fix assume a valid game, where each
  character belongs to one client.
- A stand-in whose `PlayerInfo` disappears between the two phases:
  `FixBlackScreen` requires every character known after the first delay to be
  known after the second.
- RoleManager.AssignRoles: the final Disconnected flags are stated only as
  "nothing but Disconnected flags changed", not flag by flag.
- RoleManager.SetRoleForDesync: its own contract states only the absence of
  faults and the state it leaves. The messages are stated by
  `RoleManagerProofs.DesyncMessages` and `Dispatch.SweepSends`.
- PlayerControl.SetRoleForDesync: its own contract states only the absence of
  faults and the state it leaves. The messages are stated by
  `PlayerControlProofs.DesyncWithoutOverlay`.
- RoleManagerProofs.RevertSends: the one-revert-per-pair statement is proved
  only when every recorded player is still controlled by a non-host client.
  Otherwise only the bound of `RoleManagerProofs.RevertSendsBound` is proved.
- RoleManager.RevertEach: the revert phase enumerates the `setPlayers`
  Dictionary (RoleManager.cs:108), and .NET leaves that enumeration order
  unspecified. The model sends the reverts in insertion (grant) order, and
  `RoleManagerProofs.RevertSends` states that order.
- RoleManagerProofs.AssignRolesSends: the messages are characterised as a
  set (both directions of membership), not by count or order: the block
  structure per ready player is left out.
- RoleManagerProofs.GrantSends: stated for a valid game with a host. With no
  host, `RoleManagerProofs.GrantSendsNoHost` states that nothing is sent.

=== FILE: dispatch.dfy ===
/** Addressing and framing shared by every role send: the introduction
    around a SetRole RPC, the exclusion list of a desynchronised sweep, and
    the sweep itself, which sends one recipient-specific message to each
    roster character outside the exclusion list. */
module Dispatch {
  import opened GameState
  import opened Effects

  /** The snapshot an introduction frames: the subject's info with
      Disconnected forced true; no snapshot for a plain role change. */
  function IntroSnapshot(info: PlayerInfo, isIntro: bool): Option<PlayerInfo>
  {
    if isIntro then Some(info.(disconnected := true)) else None
  }

  /** The first half of an introduction, up to the framing of the snapshot:
      the subject's Disconnected flag is forced true. */
  function OpenIntro(g: Game, subject: NetId, isIntro: bool): (o: Outcome)
    requires subject in g.infos
    ensures o.error.None? && Sends(o.log) == [] && Explains(g, o)
    ensures o.game.players == g.players && o.game.host == g.host && o.game.infos.Keys == g.infos.Keys
    ensures isIntro ==> o.game.infos == g.infos[subject := g.infos[subject].(disconnected := true)]
    ensures !isIntro ==> o.game == g
  {
    if isIntro then
      var on := g.infos[subject].(disconnected := true);
      var w := Write(subject, on);
      assert Replay(g, [w]) == Replay(Apply(g, w), []);
      Outcome(Apply(g, w), [w], None)
    else
      Outcome(g, [], None)
  }

  /** One SetRole RPC on `subject` delivered to `to`. As an introduction the
      subject's Disconnected flag is forced true, the snapshot is framed,
      the message is sent, and the flag is forced false: it ends false
      whatever it was before. The authoritative role is never written. */
  function FramedSetRole(g: Game, subject: NetId, role: Role, isIntro: bool, to: Recipient): (o: Outcome)
    requires subject in g.infos
    ensures o.error.None? && Explains(g, o) && Events(o.log) == []
    ensures Sends(o.log) == [Message(to, subject, IntroSnapshot(g.infos[subject], isIntro), Some(SetRole(role)))]
    ensures o.game.players == g.players && o.game.host == g.host && o.game.infos.Keys == g.infos.Keys
    ensures isIntro ==> o.game.infos == g.infos[subject := g.infos[subject].(disconnected := false)]
    ensures !isIntro ==> o.game == g
    ensures AgreeButDisconnected(g, o.game)
  {
    var info := g.infos[subject];
    var msg := Message(to, subject, IntroSnapshot(info, isIntro), Some(SetRole(role)));
    if isIntro then
      var on := Write(subject, info.(disconnected := true));
      var off := Write(subject, info.(disconnected := false));
      var log := [on, Send(msg), off];
      assert log[1..] == [Send(msg), off] && log[1..][1..] == [off] && log[1..][1..][1..] == [];
      assert Sends(log[1..][1..][1..]) == [] && Events(log[1..][1..][1..]) == [];
      assert Sends(log[1..][1..]) == [] && Events(log[1..][1..]) == [];
      assert Sends(log[1..]) == [msg] && Events(log[1..]) == [];
      var g1 := Apply(g, on);
      assert Replay(g1, log[1..][1..]) == Replay(Apply(g1, off), []);
      assert Replay(g1, log[1..]) == Replay(g1, log[1..][1..]);
      assert Replay(g, log) == Replay(g1, log[1..]);
      Outcome(Apply(Apply(g, on), off), log, None)
    else
      var log := [Send(msg)];
      assert log[1..] == [];
      assert Replay(g, log) == Replay(g, []);
      Outcome(g, log, None)
  }

  /** The role shown to `recipient` for `subject`. With the impostor-team
      overlay, an impostor recipient of an impostor subject is shown the
      subject's true standing; everyone else is shown `role`. */
  function Shown(g: Game, subject: NetId, recipient: NetId, role: Role, overlay: bool): Role
    requires subject in g.infos && (overlay ==> recipient in g.infos)
  {
    if overlay && g.infos[recipient].isImpostor && g.infos[subject].isImpostor then
      (if g.infos[subject].isDead then ImpostorGhost else Impostor)
    else
      role
  }

  /** The exclusion list of a sweep: a null entry stands for the subject. */
  function Exclusions(subject: NetId, targets: seq<Option<NetId>>): (excl: seq<NetId>)
    ensures |excl| == |targets|
    ensures forall c :: c in excl <==> Some(c) in targets || (None in targets && c == subject)
  {
    var excl := seq(|targets|, i requires 0 <= i < |targets| => if targets[i].Some? then targets[i].value else subject);
    assert forall c :: Some(c) in targets ==> c in excl by {
      forall c | Some(c) in targets
        ensures c in excl
      {
        var i :| 0 <= i < |targets| && targets[i] == Some(c);
        assert excl[i] == c;
      }
    }
    assert None in targets ==> subject in excl by {
      if None in targets {
        var i :| 0 <= i < |targets| && targets[i] == None;
        assert excl[i] == subject;
      }
    }
    excl
  }

  /** The characters of `ps` a sweep excluding `excl` reaches, in roster order. */
  function Recipients(ps: seq<ClientPlayer>, excl: seq<NetId>): (rs: seq<NetId>)
    ensures forall c :: c in rs <==> c !in excl && OnRoster(ps, c)
  {
    if ps == [] then []
    else
      var rest := Recipients(ps[1..], excl);
      assert forall c: NetId :: OnRoster(ps, c) <==> ps[0].character == Some(c) || OnRoster(ps[1..], c) by {
        forall c: NetId
          ensures OnRoster(ps, c) <==> ps[0].character == Some(c) || OnRoster(ps[1..], c)
        {
          if OnRoster(ps, c) && ps[0].character != Some(c) {
            var k :| 0 <= k < |ps| && ps[k].character == Some(c);
            assert ps[1..][k - 1] == ps[k];
          }
          if OnRoster(ps[1..], c) {
            var k :| 0 <= k < |ps[1..]| && ps[1..][k].character == Some(c);
            assert ps[k + 1] == ps[1..][k];
          }
        }
      }
      (if ps[0].character.Some? && ps[0].character.value !in excl then [ps[0].character.value] else []) + rest
  }

  /** Every character on `ps` is controlled by a client of `g`, and has its
      info when the sweep reads recipients' info (the overlay). */
  predicate Reachable(g: Game, ps: seq<ClientPlayer>, overlay: bool)
  {
    forall i :: 0 <= i < |ps| && ps[i].character.Some? ==>
      (overlay ==> ps[i].character.value in g.infos) && OnRoster(g.players, ps[i].character.value)
  }

  /** A spawned roster is reachable from its own game. */
  lemma SpawnedReachable(g: Game, overlay: bool)
    requires Spawned(g)
    ensures Reachable(g, g.players, overlay)
  {
  }

  /** Without the overlay any roster is reachable from its own game. */
  lemma RosterReachable(g: Game)
    ensures Reachable(g, g.players, false)
  {
  }

  lemma ReachableTail(g: Game, ps: seq<ClientPlayer>, overlay: bool)
    requires ps != [] && Reachable(g, ps, overlay)
    ensures Reachable(g, ps[1..], overlay)
  {
  }

  /** The desynchronised sweep over `ps`: one SetRole message on `subject`
      to the client of every character outside `excl`. The connection
      lookup cannot fail, because each recipient is drawn from the roster
      the lookup searches. */
  function Sweep(g: Game, ps: seq<ClientPlayer>, subject: NetId, role: Role, excl: seq<NetId>,
                 isIntro: bool, overlay: bool): (o: Outcome)
    requires subject in g.infos && Reachable(g, ps, overlay)
    ensures o.error.None? && Explains(g, o) && Events(o.log) == []
    ensures AgreeButDisconnected(g, o.game)
    decreases |ps|
  {
    if ps == [] then
      Outcome(g, [], None)
    else
      ReachableTail(g, ps, overlay);
      if ps[0].character.None? || ps[0].character.value in excl then
        Sweep(g, ps[1..], subject, role, excl, isIntro, overlay)
      else
        var pc := ps[0].character.value;
        var step := FramedSetRole(g, subject, Shown(g, subject, pc, role, overlay), isIntro, Only(Route(g.players, pc).value));
        var rest := Sweep(step.game, ps[1..], subject, role, excl, isIntro, overlay);
        ChainExplains(g, step, rest);
        Chain(step, rest)
  }

  /** The message a sweep sends to recipient `r`. */
  function SweepMessage(g: Game, subject: NetId, role: Role, r: NetId, isIntro: bool, overlay: bool): Message
    requires subject in g.infos && (overlay ==> r in g.infos) && OnRoster(g.players, r)
  {
    Message(Only(Route(g.players, r).value), subject, IntroSnapshot(g.infos[subject], isIntro),
            Some(SetRole(Shown(g, subject, r, role, overlay))))
  }

  /** What a sweep reads is unaffected by Disconnected flags. */
  lemma SweepMessageAgrees(g1: Game, g2: Game, subject: NetId, role: Role, r: NetId, isIntro: bool, overlay: bool)
    requires AgreeButDisconnected(g1, g2) && subject in g1.infos && (overlay ==> r in g1.infos) && OnRoster(g1.players, r)
    ensures SweepMessage(g1, subject, role, r, isIntro, overlay) == SweepMessage(g2, subject, role, r, isIntro, overlay)
  {
  }

  /** A recipient list starts with the first roster entry when that entry is reached. */
  lemma RecipientsCons(ps: seq<ClientPlayer>, excl: seq<NetId>)
    requires ps != []
    ensures ps[0].character.None? || ps[0].character.value in excl ==> Recipients(ps, excl) == Recipients(ps[1..], excl)
    ensures ps[0].character.Some? && ps[0].character.value !in excl ==>
              Recipients(ps, excl) == [ps[0].character.value] + Recipients(ps[1..], excl)
  {
  }

  /** The step from the first roster entry of a sweep to the rest. */
  lemma SweepStep(g: Game, ps: seq<ClientPlayer>, subject: NetId, role: Role, excl: seq<NetId>,
                  isIntro: bool, overlay: bool)
    requires subject in g.infos && Reachable(g, ps, overlay) && ps != []
    ensures Reachable(g, ps[1..], overlay)
    ensures ps[0].character.None? || ps[0].character.value in excl ==>
              Sweep(g, ps, subject, role, excl, isIntro, overlay) == Sweep(g, ps[1..], subject, role, excl, isIntro, overlay)
    ensures ps[0].character.Some? && ps[0].character.value !in excl ==>
              var pc := ps[0].character.value;
              var step := FramedSetRole(g, subject, Shown(g, subject, pc, role, overlay), isIntro, Only(Route(g.players, pc).value));
              Sweep(g, ps, subject, role, excl, isIntro, overlay) == Chain(step, Sweep(step.game, ps[1..], subject, role, excl, isIntro, overlay))
  {
  }

  /** A reached first roster entry: its message, then the rest of the
      sweep run on the state the first send left. */
  lemma SweepHead(g: Game, ps: seq<ClientPlayer>, subject: NetId, role: Role, excl: seq<NetId>,
                  isIntro: bool, overlay: bool)
    requires subject in g.infos && Reachable(g, ps, overlay) && ps != []
    requires ps[0].character.Some? && ps[0].character.value !in excl
    ensures var pc := ps[0].character.value;
            var step := FramedSetRole(g, subject, Shown(g, subject, pc, role, overlay), isIntro, Only(Route(g.players, pc).value));
            && (overlay ==> pc in g.infos) && OnRoster(g.players, pc)
            && AgreeButDisconnected(g, step.game) && subject in step.game.infos
            && Reachable(step.game, ps[1..], overlay)
            && Sends(Sweep(g, ps, subject, role, excl, isIntro, overlay).log)
               == [SweepMessage(g, subject, role, pc, isIntro, overlay)] + Sends(Sweep(step.game, ps[1..], subject, role, excl, isIntro, overlay).log)
  {
  }

  /** Prepending the first recipient's message to a tail computed on a state
      that differs only in Disconnected flags. */
  lemma SweepShift(g: Game, g': Game, subject: NetId, role: Role, isIntro: bool, overlay: bool,
                   pc: NetId, restRs: seq<NetId>, tail: seq<Message>, rs: seq<NetId>, ms: seq<Message>)
    requires AgreeButDisconnected(g, g') && subject in g.infos && (overlay ==> pc in g.infos) && OnRoster(g.players, pc)
    requires rs == [pc] + restRs && ms == [SweepMessage(g, subject, role, pc, isIntro, overlay)] + tail
    requires |tail| == |restRs|
    requires forall i :: 0 <= i < |restRs| ==> (overlay ==> restRs[i] in g'.infos) && OnRoster(g'.players, restRs[i])
    requires forall i :: 0 <= i < |restRs| ==> tail[i] == SweepMessage(g', subject, role, restRs[i], isIntro, overlay)
    ensures |ms| == |rs|
    ensures forall i :: 0 <= i < |rs| ==> (overlay ==> rs[i] in g.infos) && OnRoster(g.players, rs[i])
    ensures forall i :: 0 <= i < |rs| ==> ms[i] == SweepMessage(g, subject, role, rs[i], isIntro, overlay)
  {
  }

  /** The sweep's messages, one per recipient and in recipient order: each
      goes to the recipient's own client, carries the role `Shown` to that
      recipient, and frames the Disconnected-true snapshot exactly when it
      is an introduction. */
  lemma {:induction false} SweepSends(g: Game, ps: seq<ClientPlayer>, subject: NetId, role: Role, excl: seq<NetId>,
                                      isIntro: bool, overlay: bool)
    requires subject in g.infos && Reachable(g, ps, overlay)
    ensures var rs := Recipients(ps, excl);
            forall i :: 0 <= i < |rs| ==> (overlay ==> rs[i] in g.infos) && OnRoster(g.players, rs[i])
    ensures var rs := Recipients(ps, excl);
            var ms := Sends(Sweep(g, ps, subject, role, excl, isIntro, overlay).log);
            && |ms| == |rs|
            && forall i :: 0 <= i < |rs| ==> ms[i] == SweepMessage(g, subject, role, rs[i], isIntro, overlay)
    decreases |ps|
  {
    if ps != [] {
      RecipientsCons(ps, excl);
      if ps[0].character.None? || ps[0].character.value in excl {
        SweepStep(g, ps, subject, role, excl, isIntro, overlay);
        SweepSends(g, ps[1..], subject, role, excl, isIntro, overlay);
      } else {
        var pc := ps[0].character.value;
        var step := FramedSetRole(g, subject, Shown(g, subject, pc, role, overlay), isIntro, Only(Route(g.players, pc).value));
        SweepHead(g, ps, subject, role, excl, isIntro, overlay);
        SweepSends(step.game, ps[1..], subject, role, excl, isIntro, overlay);
        SweepShift(g, step.game, subject, role, isIntro, overlay, pc,
                   Recipients(ps[1..], excl), Sends(Sweep(step.game, ps[1..], subject, role, excl, isIntro, overlay).log),
                   Recipients(ps, excl), Sends(Sweep(g, ps, subject, role, excl, isIntro, overlay).log));
      }
    }
  }

  /** Clearing the subject's Disconnected flag a second time changes nothing. */
  lemma ClearedTwice(before: map<NetId, PlayerInfo>, mid: map<NetId, PlayerInfo>, after: map<NetId, PlayerInfo>,
                     subject: NetId, isIntro: bool, again: bool)
    requires subject in before
    requires mid == if isIntro then before[subject := before[subject].(disconnected := false)] else before
    requires after == if isIntro && again then mid[subject := mid[subject].(disconnected := false)] else mid
    ensures after == if isIntro then before[subject := before[subject].(disconnected := false)] else before
  {
  }

  /** After a sweep only the subject's Disconnected flag can differ, and it
      is false once an introduction has been sent. */
  lemma {:induction false} SweepState(g: Game, ps: seq<ClientPlayer>, subject: NetId, role: Role, excl: seq<NetId>,
                                      isIntro: bool, overlay: bool)
    requires subject in g.infos && Reachable(g, ps, overlay)
    ensures var o := Sweep(g, ps, subject, role, excl, isIntro, overlay);
            && o.game.players == g.players && o.game.host == g.host
            && o.game.infos == (if isIntro && Recipients(ps, excl) != [] then g.infos[subject := g.infos[subject].(disconnected := false)] else g.infos)
    decreases |ps|
  {
    if ps != [] {
      SweepStep(g, ps, subject, role, excl, isIntro, overlay);
      RecipientsCons(ps, excl);
      if ps[0].character.None? || ps[0].character.value in excl {
        SweepState(g, ps[1..], subject, role, excl, isIntro, overlay);
      } else {
        var pc := ps[0].character.value;
        var step := FramedSetRole(g, subject, Shown(g, subject, pc, role, overlay), isIntro, Only(Route(g.players, pc).value));
        var rest := Sweep(step.game, ps[1..], subject, role, excl, isIntro, overlay);
        SweepHead(g, ps, subject, role, excl, isIntro, overlay);
        assert Sweep(g, ps, subject, role, excl, isIntro, overlay).game == rest.game;
        SweepState(step.game, ps[1..], subject, role, excl, isIntro, overlay);
        ClearedTwice(g.infos, step.game.infos, rest.game.infos, subject, isIntro, Recipients(ps[1..], excl) != []);
      }
    }
  }

  /** In a valid game a sweep reaches each roster character outside the
      exclusion list exactly once: the recipient list has no repeats. */
  lemma {:induction false} RecipientsDistinct(ps: seq<ClientPlayer>, excl: seq<NetId>)
    requires forall i, j :: 0 <= i < j < |ps| && ps[i].character.Some? ==> ps[i].character != ps[j].character
    ensures var rs := Recipients(ps, excl);
            forall i, j :: 0 <= i < j < |rs| ==> rs[i] != rs[j]
    decreases |ps|
  {
    if ps != [] {
      var rs := Recipients(ps, excl);
      var rs' := Recipients(ps[1..], excl);
      RecipientsCons(ps, excl);
      assert forall i, j :: 0 <= i < j < |ps[1..]| && ps[1..][i].character.Some? ==> ps[1..][i].character != ps[1..][j].character by {
        forall i, j | 0 <= i < j < |ps[1..]| && ps[1..][i].character.Some?
          ensures ps[1..][i].character != ps[1..][j].character
        {
          assert ps[1..][i] == ps[i + 1] && ps[1..][j] == ps[j + 1];
        }
      }
      RecipientsDistinct(ps[1..], excl);
      if ps[0].character.Some? && ps[0].character.value !in excl {
        var c := ps[0].character.value;
        assert !OnRoster(ps[1..], c) by {
          forall k | 0 <= k < |ps[1..]|
            ensures ps[1..][k].character != Some(c)
          {
            assert ps[1..][k] == ps[k + 1];
          }
        }
        assert c !in rs';
        forall i, j | 0 <= i < j < |rs|
          ensures rs[i] != rs[j]
        {
          assert rs[j] == rs'[j - 1];
          if i > 0 {
            assert rs[i] == rs'[i - 1];
          } else {
            assert rs[i] == c;
          }
        }
      }
    }
  }
}

=== FILE: effects.dfy ===
/** What an operation does, as one ordered log: writes to a character's
    PlayerInfo, messages handed to the transport, and events handed to
    observers. No bytes are modelled; a message is an abstract record. */
module Effects {
  import opened GameState

  /** The three delivery primitives: every client, every client but one,
      or exactly one client. */
  datatype Recipient = Everyone | AllExcept(excluded: ClientId) | Only(client: ClientId)

  datatype MurderFlag = Succeeded | FailedError | FailedProtected | DecisionByHost

  type MurderResult = set<MurderFlag>

  /** The failed-result test of the murder flags. */
  predicate IsFailed(result: MurderResult)
  {
    FailedError in result || FailedProtected in result
  }

  /** The RPC calls this core emits, with their semantic arguments. */
  datatype Call =
    | SetRole(role: Role)
    | MurderPlayer(target: NetId, result: MurderResult)
    | ProtectPlayer(target: NetId, color: nat)
    | Exiled
    | SetName(name: string)
    | SetColor(color: nat)
    | SetHat(hatId: string)
    | SetPet(petId: string)
    | SetSkin(skinId: string)

  /** One game-data message about `subject`: an optional full PlayerInfo
      snapshot (present exactly for introductions and data syncs) and an
      optional RPC call on the subject. */
  datatype Message = Message(to: Recipient, subject: NetId, snapshot: Option<PlayerInfo>, call: Option<Call>)

  datatype Event =
    | MurderEvent(murderer: NetId, target: NetId, result: MurderResult)
    | ExileEvent(subject: NetId)

  datatype Effect = Write(id: NetId, info: PlayerInfo) | Send(msg: Message) | Notify(event: Event)

  datatype Violation =
    | MurdererNotImpostor | MurdererNotAlive | TargetNotAlive | ProtectsGuardianAngel | ExiledNotAlive

  /** NoHost: the host was dereferenced while absent. Unrouted: no client
      controls the character a message was addressed to. Protocol: a
      lifecycle transition was rejected. */
  datatype Error = NoHost | Unrouted(character: NetId) | Protocol(violation: Violation)

  /** The state after an operation, everything it did in order, and the
      error that stopped it, if any. */
  datatype Outcome = Outcome(game: Game, log: seq<Effect>, error: Option<Error>)

  function Apply(g: Game, e: Effect): Game
  {
    if e.Write? then g.(infos := g.infos[e.id := e.info]) else g
  }

  /** The state reached by performing the writes of `log` on `g`. */
  function Replay(g: Game, log: seq<Effect>): Game
    decreases |log|
  {
    if log == [] then g else Replay(Apply(g, log[0]), log[1..])
  }

  /** The messages of `log`, in the order they were sent. */
  function Sends(log: seq<Effect>): (ms: seq<Message>)
  {
    if log == [] then []
    else (if log[0].Send? then [log[0].msg] else []) + Sends(log[1..])
  }

  /** The events of `log`, in the order they were raised. */
  function Events(log: seq<Effect>): (es: seq<Event>)
  {
    if log == [] then []
    else (if log[0].Notify? then [log[0].event] else []) + Events(log[1..])
  }

  lemma {:induction false} ReplayAppend(g: Game, a: seq<Effect>, b: seq<Effect>)
    ensures Replay(g, a + b) == Replay(Replay(g, a), b)
    decreases |a|
  {
    if a != [] {
      assert (a + b)[1..] == a[1..] + b;
      ReplayAppend(Apply(g, a[0]), a[1..], b);
    } else {
      assert a + b == b;
    }
  }

  lemma {:induction false} SendsAppend(a: seq<Effect>, b: seq<Effect>)
    ensures Sends(a + b) == Sends(a) + Sends(b)
    decreases |a|
  {
    if a != [] {
      assert (a + b)[1..] == a[1..] + b;
      assert (a + b)[0] == a[0];
      SendsAppend(a[1..], b);
    } else {
      assert a + b == b;
    }
  }

  lemma {:induction false} EventsAppend(a: seq<Effect>, b: seq<Effect>)
    ensures Events(a + b) == Events(a) + Events(b)
    decreases |a|
  {
    if a != [] {
      assert (a + b)[1..] == a[1..] + b;
      assert (a + b)[0] == a[0];
      EventsAppend(a[1..], b);
    } else {
      assert a + b == b;
    }
  }

  /** `o` is an honest account of running on `g`: its state is exactly what
      its own writes produce. */
  predicate Explains(g: Game, o: Outcome)
  {
    o.game == Replay(g, o.log)
  }

  /** Two steps run one after the other; the outcome keeps the second's error. */
  function Chain(first: Outcome, second: Outcome): (o: Outcome)
    ensures Sends(o.log) == Sends(first.log) + Sends(second.log)
    ensures Events(o.log) == Events(first.log) + Events(second.log)
  {
    SendsAppend(first.log, second.log);
    EventsAppend(first.log, second.log);
    Outcome(second.game, first.log + second.log, second.error)
  }

  lemma ChainExplains(g: Game, first: Outcome, second: Outcome)
    requires Explains(g, first) && Explains(first.game, second)
    ensures Explains(g, Chain(first, second))
  {
    ReplayAppend(g, first.log, second.log);
  }
}

=== FILE: player_control.dfy ===
/** The character's own API, in the older revision: role sends without the
    host exclusion or the impostor overlay, the outfit setters, and the
    lifecycle transitions murder, protect and exile. The plain role send,
    the outfit setters and the lifecycle RPCs go to every client; the
    single role send goes to one client, and the desync sweep to each
    reached client separately. */
module PlayerControl {
  import opened GameState
  import opened Effects
  import opened Dispatch

  /** A SetRole RPC on `self` to every client, the host's included. */
  function SetRole(g: Game, self: NetId, role: Role, isIntro: bool): (o: Outcome)
    requires self in g.infos
    ensures o.error.None? && Explains(g, o) && Events(o.log) == []
    ensures Sends(o.log) == [Message(Everyone, self, IntroSnapshot(g.infos[self], isIntro), Some(Call.SetRole(role)))]
    ensures o.game.players == g.players && o.game.host == g.host
    ensures o.game.infos == (if isIntro then g.infos[self := g.infos[self].(disconnected := false)] else g.infos)
    ensures o.game.infos[self].roleType == g.infos[self].roleType
  {
    FramedSetRole(g, self, role, isIntro, Everyone)
  }

  /** A SetRole RPC on `self` to the client controlling `player` (`self`
      when null). The client is looked up before anything else, so a
      character no client controls faults with no effect. There is no host
      check. */
  function SetRoleFor(g: Game, self: NetId, role: Role, player: Option<NetId>, isIntro: bool): (o: Outcome)
    requires self in g.infos
    ensures Explains(g, o) && Events(o.log) == []
    ensures AgreeButDisconnected(g, o.game)
    ensures var t := if player.Some? then player.value else self;
            && (OnRoster(g.players, t) ==>
                  && o.error.None?
                  && Sends(o.log) == [Message(Only(Route(g.players, t).value), self, IntroSnapshot(g.infos[self], isIntro), Some(Call.SetRole(role)))]
                  && o.game.infos == (if isIntro then g.infos[self := g.infos[self].(disconnected := false)] else g.infos))
            && (!OnRoster(g.players, t) ==> o == Outcome(g, [], Some(Unrouted(t))))
  {
    var t := if player.Some? then player.value else self;
    match Route(g.players, t)
    case None => Outcome(g, [], Some(Unrouted(t)))
    case Some(client) => FramedSetRole(g, self, role, isIntro, Only(client))
  }

  /** The desynchronised sweep without the overlay: every roster character
      outside `players` (a null entry standing for `self`) is sent `role`. */
  function SetRoleForDesync(g: Game, self: NetId, role: Role, players: seq<Option<NetId>>, isIntro: bool): (o: Outcome)
    requires self in g.infos
    ensures o.error.None? && Explains(g, o) && Events(o.log) == []
    ensures AgreeButDisconnected(g, o.game)
  {
    RosterReachable(g);
    Sweep(g, g.players, self, role, Exclusions(self, players), isIntro, false)
  }

  /** An outfit change: the new outfit is written, then `call` is broadcast. */
  function Restyle(g: Game, self: NetId, outfit: Outfit, call: Call): (o: Outcome)
    requires self in g.infos
    ensures o.error.None? && Explains(g, o) && Events(o.log) == []
    ensures Sends(o.log) == [Message(Everyone, self, None, Some(call))]
    ensures o.game.players == g.players && o.game.host == g.host
    ensures o.game.infos == g.infos[self := g.infos[self].(outfit := outfit)]
    ensures |o.log| == 2 && Replay(g, o.log[..1]) == o.game
  {
    var w := Write(self, g.infos[self].(outfit := outfit));
    var log := [w, Send(Message(Everyone, self, None, Some(call)))];
    assert log[1..] == [Send(Message(Everyone, self, None, Some(call)))] && log[1..][1..] == [];
    assert log[..1] == [w] && [w][1..] == [];
    var g1 := Apply(g, w);
    assert Sends(log[1..][1..]) == [] && Events(log[1..][1..]) == [];
    assert Events(log[1..]) == [];
    assert Replay(g1, log[1..]) == Replay(Apply(g1, log[1]), log[1..][1..]);
    Outcome(g1, log, None)
  }

  /** The outfit after a setter: `after` differs from `before` at most in the
      field the setter owns. */
  predicate OnlyName(before: Outfit, after: Outfit)   { after.(name := before.name) == before }
  predicate OnlyColor(before: Outfit, after: Outfit)  { after.(color := before.color) == before }
  predicate OnlyHat(before: Outfit, after: Outfit)    { after.(hatId := before.hatId) == before }
  predicate OnlyPet(before: Outfit, after: Outfit)    { after.(petId := before.petId) == before }
  predicate OnlySkin(before: Outfit, after: Outfit)   { after.(skinId := before.skinId) == before }

  /** Only `self`'s outfit can differ; every other field and character is
      unchanged. */
  predicate OutfitOnly(g: Game, o: Outcome, self: NetId)
    requires self in g.infos
  {
    && o.game.players == g.players && o.game.host == g.host
    && o.game.infos.Keys == g.infos.Keys
    && o.game.infos[self].(outfit := g.infos[self].outfit) == g.infos[self]
    && forall c :: c in g.infos && c != self ==> o.game.infos[c] == g.infos[c]
  }

  function SetName(g: Game, self: NetId, name: string): (o: Outcome)
    requires self in g.infos
    ensures o.error.None? && Explains(g, o) && Events(o.log) == [] && OutfitOnly(g, o, self)
    ensures |o.log| == 2 && Replay(g, o.log[..1]) == o.game
    ensures o.game.infos[self].outfit.name == name && OnlyName(g.infos[self].outfit, o.game.infos[self].outfit)
    ensures Sends(o.log) == [Message(Everyone, self, None, Some(Call.SetName(name)))]
  {
    Restyle(g, self, g.infos[self].outfit.(name := name), Call.SetName(name))
  }

  function SetColor(g: Game, self: NetId, color: nat): (o: Outcome)
    requires self in g.infos
    ensures o.error.None? && Explains(g, o) && Events(o.log) == [] && OutfitOnly(g, o, self)
    ensures |o.log| == 2 && Replay(g, o.log[..1]) == o.game
    ensures o.game.infos[self].outfit.color == color && OnlyColor(g.infos[self].outfit, o.game.infos[self].outfit)
    ensures Sends(o.log) == [Message(Everyone, self, None, Some(Call.SetColor(color)))]
  {
    Restyle(g, self, g.infos[self].outfit.(color := color), Call.SetColor(color))
  }

  function SetHat(g: Game, self: NetId, hatId: string): (o: Outcome)
    requires self in g.infos
    ensures o.error.None? && Explains(g, o) && Events(o.log) == [] && OutfitOnly(g, o, self)
    ensures |o.log| == 2 && Replay(g, o.log[..1]) == o.game
    ensures o.game.infos[self].outfit.hatId == hatId && OnlyHat(g.infos[self].outfit, o.game.infos[self].outfit)
    ensures Sends(o.log) == [Message(Everyone, self, None, Some(Call.SetHat(hatId)))]
  {
    Restyle(g, self, g.infos[self].outfit.(hatId := hatId), Call.SetHat(hatId))
  }

  function SetPet(g: Game, self: NetId, petId: string): (o: Outcome)
    requires self in g.infos
    ensures o.error.None? && Explains(g, o) && Events(o.log) == [] && OutfitOnly(g, o, self)
    ensures |o.log| == 2 && Replay(g, o.log[..1]) == o.game
    ensures o.game.infos[self].outfit.petId == petId && OnlyPet(g.infos[self].outfit, o.game.infos[self].outfit)
    ensures Sends(o.log) == [Message(Everyone, self, None, Some(Call.SetPet(petId)))]
  {
    Restyle(g, self, g.infos[self].outfit.(petId := petId), Call.SetPet(petId))
  }

  function SetSkin(g: Game, self: NetId, skinId: string): (o: Outcome)
    requires self in g.infos
    ensures o.error.None? && Explains(g, o) && Events(o.log) == [] && OutfitOnly(g, o, self)
    ensures |o.log| == 2 && Replay(g, o.log[..1]) == o.game
    ensures o.game.infos[self].outfit.skinId == skinId && OnlySkin(g.infos[self].outfit, o.game.infos[self].outfit)
    ensures Sends(o.log) == [Message(Everyone, self, None, Some(Call.SetSkin(skinId)))]
  {
    Restyle(g, self, g.infos[self].outfit.(skinId := skinId), Call.SetSkin(skinId))
  }

  /** A rejected transition: no state change, no message, no event. */
  function Reject(g: Game, v: Violation): Outcome
  {
    Outcome(g, [], Some(Protocol(v)))
  }

  /** `o` ends with its one RPC `m` followed by `e`, and every write it made
      precedes the RPC: the RPC is sent from the final state. */
  predicate EmitsThenNotifies(g: Game, o: Outcome, m: Message, e: Event)
  {
    && |o.log| >= 2
    && o.log[|o.log| - 2] == Send(m)
    && o.log[|o.log| - 1] == Notify(e)
    && Replay(g, o.log[..|o.log| - 2]) == o.game
    && Sends(o.log) == [m]
    && Events(o.log) == [e]
  }

  /** The RPC `m` is broadcast and then the event `e` is raised. */
  function Announce(g: Game, m: Message, e: Event): (o: Outcome)
    ensures o.error.None? && o.game == g && Explains(g, o) && EmitsThenNotifies(g, o, m, e)
  {
    var log := [Send(m), Notify(e)];
    assert log[1..] == [Notify(e)] && log[1..][1..] == [] && log[..0] == [];
    assert Sends(log[1..][1..]) == [] && Events(log[1..][1..]) == [];
    assert Sends(log[1..]) == [] && Events(log[1..]) == [e];
    assert Replay(g, log) == Replay(g, log[1..]);
    assert Replay(g, log[1..]) == Replay(g, log[1..][1..]);
    Outcome(g, log, None)
  }

  /** `info` is written for `c`, then the RPC `m` and the event `e` follow. */
  function WriteThenAnnounce(g: Game, c: NetId, info: PlayerInfo, m: Message, e: Event): (o: Outcome)
    ensures o.error.None? && o.game == g.(infos := g.infos[c := info]) && Explains(g, o) && EmitsThenNotifies(g, o, m, e)
  {
    var w := Write(c, info);
    var log := [w, Send(m), Notify(e)];
    var g1 := Apply(g, w);
    assert log[1..] == [Send(m), Notify(e)] && log[1..][1..] == [Notify(e)] && log[1..][1..][1..] == [];
    assert Sends(log[1..][1..]) == [] && Events(log[1..][1..]) == [e];
    assert Replay(g1, log[1..][1..]) == Replay(g1, []);
    assert Replay(g1, log[1..]) == Replay(g1, log[1..][1..]);
    assert log[..1] == [w] && [w][1..] == [];
    Outcome(g1, log, None)
  }

  /** `self` murders `target`. Rejected, in this order, when the murderer is
      not an impostor, is dead, or the target is dead. Otherwise a result
      that is not failed kills the target, then one MurderPlayer RPC is
      broadcast, then the murder event is raised. */
  function MurderPlayer(g: Game, self: NetId, target: NetId, result: MurderResult): (o: Outcome)
    requires self in g.infos && target in g.infos
    ensures !g.infos[self].isImpostor ==> o == Reject(g, MurdererNotImpostor)
    ensures g.infos[self].isImpostor && g.infos[self].isDead ==> o == Reject(g, MurdererNotAlive)
    ensures g.infos[self].isImpostor && !g.infos[self].isDead && g.infos[target].isDead ==> o == Reject(g, TargetNotAlive)
    ensures o.error.None? <==> g.infos[self].isImpostor && !g.infos[self].isDead && !g.infos[target].isDead
    ensures Explains(g, o)
    ensures o.error.None? ==>
              && EmitsThenNotifies(g, o, Message(Everyone, self, None, Some(Call.MurderPlayer(target, result))), MurderEvent(self, target, result))
              && o.game.players == g.players && o.game.host == g.host
              && o.game.infos == (if IsFailed(result) then g.infos else g.infos[target := Die(g.infos[target], Kill)])
  {
    if !g.infos[self].isImpostor then Reject(g, MurdererNotImpostor)
    else if g.infos[self].isDead then Reject(g, MurdererNotAlive)
    else if g.infos[target].isDead then Reject(g, TargetNotAlive)
    else
      var m := Message(Everyone, self, None, Some(Call.MurderPlayer(target, result)));
      var e := MurderEvent(self, target, result);
      if IsFailed(result) then Announce(g, m, e)
      else WriteThenAnnounce(g, target, Die(g.infos[target], Kill), m, e)
  }

  /** The one-argument overload: murder with the Succeeded result. */
  function MurderPlayerSucceeded(g: Game, self: NetId, target: NetId): (o: Outcome)
    requires self in g.infos && target in g.infos
    ensures o.error.None? ==> target in o.game.infos && o.game.infos[target].isDead && o.game.infos[target].lastDeathReason == Some(Kill)
    ensures o.error.None? <==> g.infos[self].isImpostor && !g.infos[self].isDead && !g.infos[target].isDead
  {
    MurderPlayer(g, self, target, {Succeeded})
  }

  /** `self` protects `target`. Rejected when the target's role is
      GuardianAngel; otherwise the target records its protector, then one
      ProtectPlayer RPC carrying the protector's outfit colour is
      broadcast. No event is raised. */
  function ProtectPlayer(g: Game, self: NetId, target: NetId): (o: Outcome)
    requires self in g.infos && target in g.infos
    ensures g.infos[target].roleType == Some(GuardianAngel) ==> o == Reject(g, ProtectsGuardianAngel)
    ensures o.error.None? <==> g.infos[target].roleType != Some(GuardianAngel)
    ensures Explains(g, o) && Events(o.log) == []
    ensures o.error.None? ==>
              var m := Message(Everyone, self, None, Some(Call.ProtectPlayer(target, g.infos[self].outfit.color)));
              && |o.log| >= 1 && o.log[|o.log| - 1] == Send(m) && Sends(o.log) == [m]
              && Replay(g, o.log[..|o.log| - 1]) == o.game
              && o.game.players == g.players && o.game.host == g.host
              && o.game.infos == g.infos[target := Protect(g.infos[target], self)]
  {
    if g.infos[target].roleType == Some(GuardianAngel) then
      Reject(g, ProtectsGuardianAngel)
    else
      var w := Write(target, Protect(g.infos[target], self));
      var g1 := Apply(g, w);
      var m := Message(Everyone, self, None, Some(Call.ProtectPlayer(target, g1.infos[self].outfit.color)));
      var log := [w, Send(m)];
      assert log[1..] == [Send(m)] && log[1..][1..] == [];
      assert log[..1] == [w] && [w][1..] == [];
      assert Sends(log[1..][1..]) == [] && Events(log[1..][1..]) == [];
      assert Events(log[1..]) == [];
      assert Replay(g1, log[1..]) == Replay(Apply(g1, log[1]), log[1..][1..]);
      Outcome(g1, log, None)
  }

  /** `self` is exiled. Rejected when already dead; otherwise it dies with
      reason Exile, then one Exiled RPC is broadcast, then the exile event
      is raised. */
  function Exile(g: Game, self: NetId): (o: Outcome)
    requires self in g.infos
    ensures g.infos[self].isDead ==> o == Reject(g, ExiledNotAlive)
    ensures o.error.None? <==> !g.infos[self].isDead
    ensures Explains(g, o)
    ensures o.error.None? ==>
              && EmitsThenNotifies(g, o, Message(Everyone, self, None, Some(Exiled)), ExileEvent(self))
              && o.game.players == g.players && o.game.host == g.host
              && o.game.infos == g.infos[self := Die(g.infos[self], DeathReason.Exile)]
  {
    if g.infos[self].isDead then
      Reject(g, ExiledNotAlive)
    else
      WriteThenAnnounce(g, self, Die(g.infos[self], DeathReason.Exile), Message(Everyone, self, None, Some(Exiled)), ExileEvent(self))
  }
}

=== FILE: player_control_proofs.dfy ===
/** What the character API's transitions promise when composed, and how its
    role sends differ from the role engine's. */
module PlayerControlProofs {
  import opened GameState
  import opened Effects
  import opened Dispatch
  import RoleManager
  import PlayerControl

  // ---------------------------------------------------------------------
  // Lifecycle

  /** Exile happens at most once: once a character has been exiled, a
      second exile is rejected and changes nothing. */
  lemma ExileOnce(g: Game, self: NetId)
    requires self in g.infos && !g.infos[self].isDead
    ensures var first := PlayerControl.Exile(g, self);
            && first.error.None?
            && self in first.game.infos
            && PlayerControl.Exile(first.game, self) == Outcome(first.game, [], Some(Protocol(ExiledNotAlive)))
  {
  }

  /** A murder that does not fail cannot be repeated: any later murder of
      the same target, by anyone, is rejected and changes nothing. */
  lemma NoDoubleMurder(g: Game, self: NetId, target: NetId, result: MurderResult, other: NetId, again: MurderResult)
    requires self in g.infos && target in g.infos && other in g.infos
    requires PlayerControl.MurderPlayer(g, self, target, result).error.None? && !IsFailed(result)
    ensures var first := PlayerControl.MurderPlayer(g, self, target, result);
            && other in first.game.infos && target in first.game.infos
            && var second := PlayerControl.MurderPlayer(first.game, other, target, again);
               second.error.Some? && second.game == first.game && second.log == []
  {
  }

  /** A murdered character cannot be exiled afterwards. */
  lemma NoExileAfterMurder(g: Game, self: NetId, target: NetId, result: MurderResult)
    requires self in g.infos && target in g.infos
    requires PlayerControl.MurderPlayer(g, self, target, result).error.None? && !IsFailed(result)
    ensures var first := PlayerControl.MurderPlayer(g, self, target, result);
            && target in first.game.infos
            && PlayerControl.Exile(first.game, target) == Outcome(first.game, [], Some(Protocol(ExiledNotAlive)))
  {
  }

  /** A failed murder changes nothing but still broadcasts the RPC and
      raises the event. */
  lemma FailedMurderKeepsState(g: Game, self: NetId, target: NetId, result: MurderResult)
    requires self in g.infos && target in g.infos && IsFailed(result)
    requires g.infos[self].isImpostor && !g.infos[self].isDead && !g.infos[target].isDead
    ensures var o := PlayerControl.MurderPlayer(g, self, target, result);
            && o.game == g
            && Sends(o.log) == [Message(Everyone, self, None, Some(Call.MurderPlayer(target, result)))]
            && Events(o.log) == [MurderEvent(self, target, result)]
  {
  }

  /** At the moment the MurderPlayer RPC is sent, a successful kill is
      already visible: the target is dead with reason Kill. */
  lemma KillVisibleAtRpc(g: Game, self: NetId, target: NetId, result: MurderResult)
    requires self in g.infos && target in g.infos && !IsFailed(result)
    requires g.infos[self].isImpostor && !g.infos[self].isDead && !g.infos[target].isDead
    ensures var o := PlayerControl.MurderPlayer(g, self, target, result);
            var k := |o.log| - 2;
            && 0 <= k && o.log[k].Send? && o.log[k].msg.call == Some(Call.MurderPlayer(target, result))
            && target in Replay(g, o.log[..k]).infos
            && Replay(g, o.log[..k]).infos[target].isDead
            && Replay(g, o.log[..k]).infos[target].lastDeathReason == Some(Kill)
  {
  }

  // ---------------------------------------------------------------------
  // Outfit

  /** Setters of different outfit fields commute: either order leaves the
      same game. */
  lemma NameAndHatCommute(g: Game, self: NetId, name: string, hatId: string)
    requires self in g.infos
    ensures var a := PlayerControl.SetName(g, self, name);
            var b := PlayerControl.SetHat(g, self, hatId);
            self in a.game.infos && self in b.game.infos &&
            PlayerControl.SetHat(a.game, self, hatId).game == PlayerControl.SetName(b.game, self, name).game
  {
  }

  lemma ColorAndSkinCommute(g: Game, self: NetId, color: nat, skinId: string)
    requires self in g.infos
    ensures var a := PlayerControl.SetColor(g, self, color);
            var b := PlayerControl.SetSkin(g, self, skinId);
            self in a.game.infos && self in b.game.infos &&
            PlayerControl.SetSkin(a.game, self, skinId).game == PlayerControl.SetColor(b.game, self, color).game
  {
  }

  /** Setting a field twice leaves the game the second call chose, and
      repeating the same value changes nothing further. */
  lemma PetLastWriteWins(g: Game, self: NetId, first: string, second: string)
    requires self in g.infos
    ensures var a := PlayerControl.SetPet(g, self, first);
            self in a.game.infos && PlayerControl.SetPet(a.game, self, second).game == PlayerControl.SetPet(g, self, second).game
  {
  }

  // ---------------------------------------------------------------------
  // Role sends across the two revisions

  /** An introduction in the older revision frames the snapshot the same
      way: the subject reads as disconnected when the one message goes out,
      and as connected afterwards, its role type untouched. */
  lemma SetRoleIntroFraming(g: Game, self: NetId, role: Role)
    requires self in g.infos
    ensures var o := PlayerControl.SetRole(g, self, role, true);
            && |o.log| == 3 && o.log[1] == Send(Message(Everyone, self, Some(g.infos[self].(disconnected := true)), Some(Call.SetRole(role))))
            && Replay(g, o.log[..1]).infos == g.infos[self := g.infos[self].(disconnected := true)]
            && !o.game.infos[self].disconnected
            && o.game.infos[self].roleType == g.infos[self].roleType
  {
  }

  /** The older broadcast and the newer all-but-host send carry the same
      message content; only the recipient differs. */
  lemma SetRoleRevisions(g: Game, self: NetId, role: Role, isIntro: bool)
    requires self in g.infos && g.host.Some?
    ensures var older := Sends(PlayerControl.SetRole(g, self, role, isIntro).log);
            var newer := Sends(RoleManager.SetRole(g, self, role, isIntro).log);
            && |older| == 1 && |newer| == 1
            && older[0].to == Everyone && newer[0].to == AllExcept(g.host.value)
            && older[0].(to := Everyone) == newer[0].(to := Everyone)
            && PlayerControl.SetRole(g, self, role, isIntro).game == RoleManager.SetRole(g, self, role, isIntro).game
  {
  }

  /** Addressed to the host's own character, the older single send still
      delivers to the host's client, where the newer one does nothing. */
  lemma HostCheckOnlyInNewer(g: Game, self: NetId, role: Role, isIntro: bool, h: int)
    requires Valid(g) && self in g.infos && 0 <= h < |g.players| && g.host == Some(g.players[h].id)
    requires g.players[h].character.Some?
    ensures RoleManager.SetRoleFor(g, self, role, HostCharacter(g), isIntro) == Outcome(g, [], None)
    ensures var older := PlayerControl.SetRoleFor(g, self, role, HostCharacter(g), isIntro);
            older.error.None? && Sends(older.log) == [Message(Only(g.host.value), self, IntroSnapshot(g.infos[self], isIntro), Some(Call.SetRole(role)))]
  {
    HostCharacterOf(g, h);
    RouteToOwner(g, h);
  }

  /** The older single send faults before any effect on a character no
      client controls; the newer one has by then opened the introduction. */
  lemma UnroutedRevisions(g: Game, self: NetId, role: Role, target: NetId)
    requires self in g.infos && g.host.Some? && !OnRoster(g.players, target) && Some(target) != HostCharacter(g)
    ensures PlayerControl.SetRoleFor(g, self, role, Some(target), true) == Outcome(g, [], Some(Unrouted(target)))
    ensures var newer := RoleManager.SetRoleFor(g, self, role, Some(target), true);
            && newer.error == Some(Unrouted(target)) && Sends(newer.log) == []
            && newer.game.infos == g.infos[self := g.infos[self].(disconnected := true)]
  {
  }

  /** The older desync sweep shows every recipient the caller's role: its
      messages are those of the newer sweep with the overlay removed. */
  lemma DesyncWithoutOverlay(g: Game, self: NetId, role: Role, players: seq<Option<NetId>>, isIntro: bool)
    requires self in g.infos
    ensures var rs := Recipients(g.players, Exclusions(self, players));
            var ms := Sends(PlayerControl.SetRoleForDesync(g, self, role, players, isIntro).log);
            && |ms| == |rs|
            && forall i :: 0 <= i < |rs| ==>
                 && OnRoster(g.players, rs[i])
                 && ms[i] == Message(Only(Route(g.players, rs[i]).value), self, IntroSnapshot(g.infos[self], isIntro), Some(Call.SetRole(role)))
  {
    RosterReachable(g);
    SweepSends(g, g.players, self, role, Exclusions(self, players), isIntro, false);
  }

  /** When the subject is not an impostor the overlay never applies, and the
      two revisions' desync sweeps send the same messages. */
  lemma {:induction false} DesyncRevisionsAgree(g: Game, self: NetId, role: Role, players: seq<Option<NetId>>, isIntro: bool)
    requires Spawned(g) && self in g.infos && !g.infos[self].isImpostor
    ensures Sends(PlayerControl.SetRoleForDesync(g, self, role, players, isIntro).log) ==
            Sends(RoleManager.SetRoleForDesync(g, self, role, players, isIntro).log)
  {
    var excl := Exclusions(self, players);
    var rs := Recipients(g.players, excl);
    SpawnedReachable(g, true);
    SweepSends(g, g.players, self, role, excl, isIntro, false);
    SweepSends(g, g.players, self, role, excl, isIntro, true);
    var older := Sends(PlayerControl.SetRoleForDesync(g, self, role, players, isIntro).log);
    var newer := Sends(RoleManager.SetRoleForDesync(g, self, role, players, isIntro).log);
    forall i | 0 <= i < |rs|
      ensures older[i] == newer[i]
    {
      assert SweepMessage(g, self, role, rs[i], isIntro, false) == SweepMessage(g, self, role, rs[i], isIntro, true);
    }
  }
}

=== FILE: role_manager.dfy ===
/** The role engine of the custom role manager: single-recipient,
    all-but-host and desynchronised role sends, and the bulk operations
    built on them. Delays are phase boundaries; a fire-and-forget call keeps
    the effects it made and drops its error; an awaited call propagates it. */
module RoleManager {
  import opened GameState
  import opened Effects
  import opened Dispatch

  /** A SetRole RPC on `subject` to every client but the host's. With no
      host the send faults after an introduction has been opened, so the
      subject is left Disconnected. RoleType is never written. */
  function SetRole(g: Game, subject: NetId, role: Role, isIntro: bool): (o: Outcome)
    requires subject in g.infos
    ensures Explains(g, o) && Events(o.log) == []
    ensures o.game.players == g.players && o.game.host == g.host && o.game.infos.Keys == g.infos.Keys
    ensures forall c :: c in g.infos ==> o.game.infos[c].roleType == g.infos[c].roleType
    ensures g.host.Some? ==>
              && o.error.None?
              && Sends(o.log) == [Message(AllExcept(g.host.value), subject, IntroSnapshot(g.infos[subject], isIntro), Some(Call.SetRole(role)))]
              && o.game.infos == (if isIntro then g.infos[subject := g.infos[subject].(disconnected := false)] else g.infos)
    ensures g.host.None? ==>
              && o.error == Some(NoHost)
              && Sends(o.log) == []
              && o.game.infos == (if isIntro then g.infos[subject := g.infos[subject].(disconnected := true)] else g.infos)
    ensures !isIntro ==> o.game == g
  {
    match g.host
    case None =>
      var intro := OpenIntro(g, subject, isIntro);
      Outcome(intro.game, intro.log, Some(NoHost))
    case Some(h) =>
      FramedSetRole(g, subject, role, isIntro, AllExcept(h))
  }

  /** A SetRole RPC on `subject` to the one client controlling `target`
      (the subject itself when `target` is None). Addressed to the host's
      character it does nothing at all. A target no client controls faults
      after the introduction has been opened. */
  function SetRoleFor(g: Game, subject: NetId, role: Role, target: Option<NetId>, isIntro: bool): (o: Outcome)
    requires subject in g.infos
    ensures Explains(g, o) && Events(o.log) == []
    ensures o.game.players == g.players && o.game.host == g.host && o.game.infos.Keys == g.infos.Keys
    ensures AgreeButDisconnected(g, o.game)
    ensures g.host.None? ==> o == Outcome(g, [], Some(NoHost))
    ensures g.host.Some? && target == HostCharacter(g) ==> o == Outcome(g, [], None)
    ensures g.host.Some? && target != HostCharacter(g) ==>
              var t := if target.Some? then target.value else subject;
              && (OnRoster(g.players, t) ==>
                    && o.error.None?
                    && Sends(o.log) == [Message(Only(Route(g.players, t).value), subject, IntroSnapshot(g.infos[subject], isIntro), Some(Call.SetRole(role)))]
                    && o.game.infos == (if isIntro then g.infos[subject := g.infos[subject].(disconnected := false)] else g.infos))
              && (!OnRoster(g.players, t) ==>
                    && o.error == Some(Unrouted(t)) && Sends(o.log) == []
                    && o.game.infos == (if isIntro then g.infos[subject := g.infos[subject].(disconnected := true)] else g.infos))
    ensures !isIntro ==> o.game == g
  {
    if g.host.None? then
      Outcome(g, [], Some(NoHost))
    else if target == HostCharacter(g) then
      Outcome(g, [], None)
    else
      var t := if target.Some? then target.value else subject;
      match Route(g.players, t)
      case None =>
        var intro := OpenIntro(g, subject, isIntro);
        Outcome(intro.game, intro.log, Some(Unrouted(t)))
      case Some(client) =>
        FramedSetRole(g, subject, role, isIntro, Only(client))
  }

  /** The desynchronised sweep with the impostor-team overlay: every roster
      character outside `targets` (a null entry standing for the subject)
      is sent its own SetRole message on `subject`. */
  function SetRoleForDesync(g: Game, subject: NetId, role: Role, targets: seq<Option<NetId>>, isIntro: bool): (o: Outcome)
    requires Spawned(g) && subject in g.infos
    ensures o.error.None? && Explains(g, o) && Events(o.log) == []
    ensures AgreeButDisconnected(g, o.game)
  {
    SpawnedReachable(g, true);
    Sweep(g, g.players, subject, role, Exclusions(subject, targets), isIntro, true)
  }

  /** A roster entry the bulk operations act on: spawned, with a role. */
  predicate Ready(g: Game, p: ClientPlayer)
  {
    p.character.Some? && p.character.value in g.infos && g.infos[p.character.value].roleType.Some?
  }

  /** Game start: each ready player is told its true role as an
      introduction, then every other non-host character is told Crewmate by
      an introduction sweep (impostors still see impostors). Both calls are
      fire-and-forget; their errors are dropped. */
  function AssignRoles(g: Game): (o: Outcome)
    requires Spawned(g)
    ensures o.error.None? && Explains(g, o) && Events(o.log) == []
    ensures AgreeButDisconnected(g, o.game)
  {
    AssignFrom(g, 0)
  }

  /** One AssignRoles iteration, for the ready character `c`. */
  function AssignOne(g: Game, c: NetId): (o: Outcome)
    requires Spawned(g) && c in g.infos && g.infos[c].roleType.Some?
    ensures o.error.None? && Explains(g, o) && Events(o.log) == []
    ensures AgreeButDisconnected(g, o.game)
  {
    var truth := SetRoleFor(g, c, g.infos[c].roleType.value, Some(c), true);
    var cover := SetRoleForDesync(truth.game, c, Crewmate, [Some(c), HostCharacter(g)], true);
    ChainExplains(g, Outcome(truth.game, truth.log, None), cover);
    Chain(Outcome(truth.game, truth.log, None), cover)
  }

  function AssignFrom(g: Game, k: nat): (o: Outcome)
    requires Spawned(g) && k <= |g.players|
    ensures o.error.None? && Explains(g, o) && Events(o.log) == []
    ensures AgreeButDisconnected(g, o.game)
    decreases |g.players| - k
  {
    if k == |g.players| then
      Outcome(g, [], None)
    else if !Ready(g, g.players[k]) then
      AssignFrom(g, k + 1)
    else
      var one := AssignOne(g, g.players[k].character.value);
      var rest := AssignFrom(one.game, k + 1);
      ChainExplains(g, one, rest);
      Chain(one, rest)
  }

  /** Resync: an all-but-host SetRole of each player's true role, in roster
      order, stopping for good at the first player that is not ready. */
  function ResyncRoles(g: Game): (o: Outcome)
    ensures Explains(g, o) && o.game == g && Events(o.log) == []
  {
    ResyncFrom(g, 0)
  }

  function ResyncFrom(g: Game, k: nat): (o: Outcome)
    requires k <= |g.players|
    ensures Explains(g, o) && o.game == g && Events(o.log) == []
    decreases |g.players| - k
  {
    if k == |g.players| || !Ready(g, g.players[k]) then
      Outcome(g, [], None)
    else
      var c := g.players[k].character.value;
      var step := SetRole(g, c, g.infos[c].roleType.value, false);
      if step.error.Some? then
        step
      else
        var rest := ResyncFrom(step.game, k + 1);
        ChainExplains(g, step, rest);
        Chain(step, rest)
  }

  /** Host migration: re-sends each ready player's role to the host's
      character, which the host check of SetRoleFor turns into nothing. */
  function MigrateHostExtension(g: Game): (o: Outcome)
    ensures o == Outcome(g, [], None)
  {
    if g.host.None? || HostCharacter(g).None? then Outcome(g, [], None)
    else MigrateFrom(g, 0, HostCharacter(g))
  }

  function MigrateFrom(g: Game, k: nat, hostCharacter: Option<NetId>): (o: Outcome)
    requires k <= |g.players|
    ensures g.host.Some? && hostCharacter == HostCharacter(g) ==> o == Outcome(g, [], None)
    decreases |g.players| - k
  {
    if k == |g.players| then
      Outcome(g, [], None)
    else if !Ready(g, g.players[k]) then
      MigrateFrom(g, k + 1, hostCharacter)
    else
      var c := g.players[k].character.value;
      var step := SetRoleFor(g, c, g.infos[c].roleType.value, hostCharacter, false);
      if step.error.Some? then step
      else Chain(step, MigrateFrom(step.game, k + 1, hostCharacter))
  }

  /** Data resync: the full PlayerInfo snapshot of every spawned character,
      in roster order, to every client but the host's. */
  function SyncData(g: Game): (o: Outcome)
    requires Spawned(g)
    ensures o.error.None? && Explains(g, o) && o.game == g && Events(o.log) == []
  {
    SyncFrom(g, 0)
  }

  function SyncFrom(g: Game, k: nat): (o: Outcome)
    requires Spawned(g) && k <= |g.players|
    ensures o.error.None? && Explains(g, o) && o.game == g && Events(o.log) == []
    decreases |g.players| - k
  {
    if k == |g.players| then
      Outcome(g, [], None)
    else if g.players[k].character.Some? && g.host.Some? then
      var c := g.players[k].character.value;
      var sent := Outcome(g, [Send(Message(AllExcept(g.host.value), c, Some(g.infos[c]), None))], None);
      var rest := SyncFrom(g, k + 1);
      assert Replay(g, sent.log) == Replay(g, []);
      ChainExplains(g, sent, rest);
      Chain(sent, rest)
    else
      SyncFrom(g, k + 1)
  }

  /** Alive and not disconnected. */
  predicate Active(info: PlayerInfo)
  {
    !info.isDead && !info.disconnected
  }

  /** How many roster clients from `k` on have an active character on the
      impostor side (`impostors`) or on the other side; a character without
      info is not counted. */
  function CountActive(g: Game, k: nat, impostors: bool): nat
    requires k <= |g.players|
    decreases |g.players| - k
  {
    if k == |g.players| then 0
    else
      var p := g.players[k];
      (if p.character.Some? && p.character.value in g.infos && Active(g.infos[p.character.value]) && g.infos[p.character.value].isImpostor == impostors then 1 else 0)
        + CountActive(g, k + 1, impostors)
  }

  /** The black-screen fix is attempted only when active non-impostors
      outnumber active impostors. */
  predicate NeedsFix(g: Game)
  {
    CountActive(g, 0, false) > CountActive(g, 0, true)
  }

  /** Roster entry `i` can stand in for `player`: spawned, active, neither
      `player` nor the exiled character. */
  predicate Eligible(g: Game, i: int, player: NetId, exiled: Option<NetId>)
    requires Spawned(g) && 0 <= i < |g.players|
  {
    var p := g.players[i];
    p.character.Some? && Active(g.infos[p.character.value]) && p.character.value != player && p.character != exiled
  }

  /** The stand-in for `player`: the character of the first eligible
      roster entry. */
  function StandIn(g: Game, player: NetId, exiled: Option<NetId>): (r: Option<NetId>)
    requires Spawned(g)
    ensures r.None? <==> forall i :: 0 <= i < |g.players| ==> !Eligible(g, i, player, exiled)
    ensures r.Some? ==> exists i :: 0 <= i < |g.players| && Eligible(g, i, player, exiled) && g.players[i].character == r
                                    && forall j :: 0 <= j < i ==> !Eligible(g, j, player, exiled)
  {
    FirstEligible(g, 0, player, exiled)
  }

  function FirstEligible(g: Game, k: nat, player: NetId, exiled: Option<NetId>): (r: Option<NetId>)
    requires Spawned(g) && k <= |g.players|
    requires forall j :: 0 <= j < k ==> !Eligible(g, j, player, exiled)
    ensures r.None? <==> forall i :: 0 <= i < |g.players| ==> !Eligible(g, i, player, exiled)
    ensures r.Some? ==> exists i :: 0 <= i < |g.players| && Eligible(g, i, player, exiled) && g.players[i].character == r
                                    && forall j :: 0 <= j < i ==> !Eligible(g, j, player, exiled)
    decreases |g.players| - k
  {
    if k == |g.players| then None
    else if Eligible(g, k, player, exiled) then g.players[k].character
    else FirstEligible(g, k + 1, player, exiled)
  }

  /** A non-host, non-impostor character and the stand-in shown to it as
      an impostor. */
  datatype StandInPair = StandInPair(player: NetId, standIn: NetId)

  /** The first phase's outcome and the pairs it recorded, in roster order. */
  datatype Granted = Granted(outcome: Outcome, pairs: seq<StandInPair>)

  /** First phase: for each non-host, non-impostor character with a
      stand-in, the stand-in is shown to it as an Impostor. */
  function GrantFrom(g: Game, k: nat, exiled: Option<NetId>): (r: Granted)
    requires Spawned(g) && k <= |g.players|
    ensures r.outcome.error.None? && r.outcome.game == g && Explains(g, r.outcome) && Events(r.outcome.log) == []
    ensures forall i :: 0 <= i < |r.pairs| ==> r.pairs[i].standIn in g.infos
    decreases |g.players| - k
  {
    if k == |g.players| then
      Granted(Outcome(g, [], None), [])
    else
      var p := g.players[k];
      if IsHost(g, p) || p.character.None? || g.infos[p.character.value].isImpostor then
        GrantFrom(g, k + 1, exiled)
      else
        match StandIn(g, p.character.value, exiled)
        case None => GrantFrom(g, k + 1, exiled)
        case Some(s) =>
          var step := SetRoleFor(g, s, Impostor, p.character, false);
          var rest := GrantFrom(g, k + 1, exiled);
          var sent := Outcome(g, step.log, None);
          assert Explains(g, sent) by { assert step.game == g; }
          ChainExplains(g, sent, rest.outcome);
          var pairs := [StandInPair(p.character.value, s)] + rest.pairs;
          assert pairs[1..] == rest.pairs;
          Granted(Chain(sent, rest.outcome), pairs)
  }

  /** Second phase, on the state reached after the second delay: each
      stand-in is shown back to its player as CrewmateGhost if it has died
      meanwhile, else as Crewmate. */
  function RevertEach(g: Game, pairs: seq<StandInPair>): (o: Outcome)
    requires forall i :: 0 <= i < |pairs| ==> pairs[i].standIn in g.infos
    ensures o.error.None? && o.game == g && Explains(g, o) && Events(o.log) == []
  {
    if pairs == [] then
      Outcome(g, [], None)
    else
      var s := pairs[0].standIn;
      var step := SetRoleFor(g, s, if g.infos[s].isDead then CrewmateGhost else Crewmate, Some(pairs[0].player), false);
      var rest := RevertEach(g, pairs[1..]);
      var sent := Outcome(g, step.log, None);
      ChainExplains(g, sent, rest);
      Chain(sent, rest)
  }

  /** A black-screen fix either stops at its check or runs both phases. */
  datatype BlackScreenRun = Skipped | Ran(grant: Outcome, pairs: seq<StandInPair>, revert: Outcome)

  /** The black-screen fix. The head count is made on `g`; after the first
      delay the grant phase runs on `mid`, and after the second the revert
      phase runs on `after` (other handlers may run during the delays).
      Nothing happens unless active non-impostors outnumber active
      impostors. */
  function FixBlackScreen(g: Game, mid: Game, after: Game, exiled: Option<NetId>): (r: BlackScreenRun)
    requires Spawned(mid) && mid.infos.Keys <= after.infos.Keys
    ensures r.Skipped? <==> !NeedsFix(g)
    ensures r.Ran? ==>
              && r.grant.error.None? && r.grant.game == mid && Explains(mid, r.grant) && Events(r.grant.log) == []
              && r.revert.error.None? && r.revert.game == after && Explains(after, r.revert) && Events(r.revert.log) == []
  {
    if !NeedsFix(g) then
      Skipped
    else
      var granted := GrantFrom(mid, 0, exiled);
      Ran(granted.outcome, granted.pairs, RevertEach(after, granted.pairs))
  }
}

=== FILE: role_manager_proofs.dfy ===
/** What the role engine's operations promise about the messages they send
    and the state they leave. */
module RoleManagerProofs {
  import opened GameState
  import opened Effects
  import opened Dispatch
  import opened RoleManager

  // ---------------------------------------------------------------------
  // Desynchronised sweep

  /** The desync sweep's messages, in roster order, one per roster
      character that is not excluded (a null exclusion excluding the
      subject), each to that character's client. An impostor recipient of
      an impostor subject is shown ImpostorGhost or Impostor by whether the
      subject is dead; every other recipient is shown `role`. */
  lemma DesyncMessages(g: Game, subject: NetId, role: Role, targets: seq<Option<NetId>>, isIntro: bool)
    requires Spawned(g) && subject in g.infos
    ensures var rs := Recipients(g.players, Exclusions(subject, targets));
            forall c :: c in rs <==> OnRoster(g.players, c) && Some(c) !in targets && !(None in targets && c == subject)
    ensures var rs := Recipients(g.players, Exclusions(subject, targets));
            var ms := Sends(SetRoleForDesync(g, subject, role, targets, isIntro).log);
            && |ms| == |rs|
            && forall i :: 0 <= i < |rs| ==>
                 && rs[i] in g.infos
                 && ms[i].to == Only(Route(g.players, rs[i]).value)
                 && ms[i].subject == subject
                 && ms[i].snapshot == IntroSnapshot(g.infos[subject], isIntro)
                 && ms[i].call == Some(Call.SetRole(
                      if g.infos[rs[i]].isImpostor && g.infos[subject].isImpostor
                      then (if g.infos[subject].isDead then ImpostorGhost else Impostor)
                      else role))
  {
    SpawnedReachable(g, true);
    SweepSends(g, g.players, subject, role, Exclusions(subject, targets), isIntro, true);
  }

  /** In a valid game two different characters are routed to different
      clients. */
  lemma RouteInjective(g: Game, a: NetId, b: NetId)
    requires Valid(g) && OnRoster(g.players, a) && OnRoster(g.players, b) && a != b
    ensures Route(g.players, a) != Route(g.players, b)
  {
  }

  /** In a valid game the desync sweep sends exactly one message to the
      client of each character it reaches and none to the client of an
      excluded character. */
  lemma DesyncExactlyOnce(g: Game, subject: NetId, role: Role, targets: seq<Option<NetId>>, isIntro: bool)
    requires Valid(g) && subject in g.infos
    ensures var ms := Sends(SetRoleForDesync(g, subject, role, targets, isIntro).log);
            forall i, j :: 0 <= i < j < |ms| ==> ms[i].to != ms[j].to
    ensures var ms := Sends(SetRoleForDesync(g, subject, role, targets, isIntro).log);
            forall k, i :: 0 <= k < |g.players| && 0 <= i < |ms| && g.players[k].character.Some? &&
                           g.players[k].character.value in Exclusions(subject, targets) ==>
              ms[i].to != Only(g.players[k].id)
  {
    var excl := Exclusions(subject, targets);
    var rs := Recipients(g.players, excl);
    var ms := Sends(SetRoleForDesync(g, subject, role, targets, isIntro).log);
    DesyncMessages(g, subject, role, targets, isIntro);
    RecipientsDistinct(g.players, excl);
    forall i, j | 0 <= i < j < |ms|
      ensures ms[i].to != ms[j].to
    {
      assert rs[i] in rs && rs[j] in rs;
      RouteInjective(g, rs[i], rs[j]);
    }
    forall k, i | 0 <= k < |g.players| && 0 <= i < |ms| && g.players[k].character.Some? &&
                  g.players[k].character.value in excl
      ensures ms[i].to != Only(g.players[k].id)
    {
      assert rs[i] in rs;
      var r := Route(g.players, rs[i]);
      var j :| 0 <= j < |g.players| && g.players[j].character == Some(rs[i]) && g.players[j].id == r.value;
      assert j != k;
    }
  }

  // ---------------------------------------------------------------------
  // Single sends

  /** An introduction: the subject's Disconnected flag is written true
      first, so it is true in the state the message is sent from, and the
      flag ends false. */
  lemma IntroFraming(g: Game, subject: NetId, role: Role, to: Recipient)
    requires subject in g.infos
    ensures var o := FramedSetRole(g, subject, role, true, to);
            && |o.log| == 3 && o.log[1].Send?
            && Replay(g, o.log[..1]).infos == g.infos[subject := g.infos[subject].(disconnected := true)]
            && !o.game.infos[subject].disconnected
            && o.game.infos[subject].roleType == g.infos[subject].roleType
  {
  }

  /** In a valid game SetRoleFor delivers its one message to the client
      that controls the target, or to the subject's own client when the
      target is null. */
  lemma SetRoleForOwner(g: Game, subject: NetId, role: Role, target: Option<NetId>, isIntro: bool, i: int)
    requires Valid(g) && subject in g.infos && g.host.Some? && target != HostCharacter(g)
    requires 0 <= i < |g.players| && g.players[i].character == (if target.Some? then target else Some(subject))
    ensures var o := SetRoleFor(g, subject, role, target, isIntro);
            o.error.None? && Sends(o.log) == [Message(Only(g.players[i].id), subject, IntroSnapshot(g.infos[subject], isIntro), Some(Call.SetRole(role)))]
  {
  }

  // ---------------------------------------------------------------------
  // Game start

  /** What the role engine reads of a game is the same in two games that
      differ only in Disconnected flags. */
  lemma AgreeFacts(g0: Game, g: Game)
    requires AgreeButDisconnected(g0, g)
    ensures Spawned(g0) ==> Spawned(g)
    ensures Valid(g0) ==> Valid(g)
    ensures HostCharacter(g) == HostCharacter(g0)
    ensures forall p :: Ready(g, p) <==> Ready(g0, p)
  {
  }

  lemma AgreeAt(g0: Game, g: Game, c: NetId)
    requires AgreeButDisconnected(g0, g) && c in g0.infos
    ensures c in g.infos
    ensures g.infos[c].roleType == g0.infos[c].roleType
    ensures g.infos[c].isImpostor == g0.infos[c].isImpostor
    ensures g.infos[c].isDead == g0.infos[c].isDead
    ensures IntroSnapshot(g.infos[c], true) == IntroSnapshot(g0.infos[c], true)
  {
  }

  lemma AgreeTrans(g0: Game, g1: Game, g2: Game)
    requires AgreeButDisconnected(g0, g1) && AgreeButDisconnected(g1, g2)
    ensures AgreeButDisconnected(g0, g2)
  {
  }

  /** The introduction of roster entry `i`'s true role to its own client. */
  function TruthMessage(g0: Game, i: int): Message
    requires 0 <= i < |g0.players| && Ready(g0, g0.players[i])
  {
    var c := g0.players[i].character.value;
    Message(Only(g0.players[i].id), c, IntroSnapshot(g0.infos[c], true), Some(Call.SetRole(g0.infos[c].roleType.value)))
  }

  /** Roster entry `j` is covered by the introduction of entry `i`: it is
      spawned, neither `i`'s character nor the host's. */
  predicate Covered(g0: Game, i: int, j: int)
    requires 0 <= i < |g0.players| && 0 <= j < |g0.players|
  {
    && g0.players[j].character.Some?
    && g0.players[j].character != g0.players[i].character
    && g0.players[j].character != HostCharacter(g0)
  }

  /** The Crewmate introduction of entry `i`'s character to the client of
      covered entry `j`, with the impostor-team overlay. */
  function CoverMessage(g0: Game, i: int, j: int): Message
    requires Spawned(g0) && 0 <= i < |g0.players| && Ready(g0, g0.players[i])
    requires 0 <= j < |g0.players| && g0.players[j].character.Some?
  {
    var c := g0.players[i].character.value;
    var r := g0.players[j].character.value;
    Message(Only(g0.players[j].id), c, IntroSnapshot(g0.infos[c], true), Some(Call.SetRole(Shown(g0, c, r, Crewmate, true))))
  }

  /** A message AssignRoles may send on `g0`: the true-role introduction
      of a ready non-host entry to its own client, or the Crewmate
      introduction (with the impostor-team overlay) of a ready entry to a
      covered entry's client. */
  predicate FromAssign(g0: Game, m: Message)
    requires Spawned(g0)
  {
    || (exists i :: 0 <= i < |g0.players| && Ready(g0, g0.players[i]) && g0.host.Some? && !IsHost(g0, g0.players[i]) &&
                    m == TruthMessage(g0, i))
    || (exists i, j :: 0 <= i < |g0.players| && Ready(g0, g0.players[i]) && 0 <= j < |g0.players| && Covered(g0, i, j) &&
                       m == CoverMessage(g0, i, j))
  }

  /** In a valid game with a host, a non-host entry's character is not the
      host's. */
  lemma NotHostCharacter(g0: Game, i: int)
    requires Valid(g0) && g0.host.Some? && 0 <= i < |g0.players| && g0.players[i].character.Some?
    ensures !IsHost(g0, g0.players[i]) <==> g0.players[i].character != HostCharacter(g0)
  {
    var h :| 0 <= h < |g0.players| && g0.players[h].id == g0.host.value;
    HostCharacterOf(g0, h);
    if h != i && !IsHost(g0, g0.players[i]) {
      if h < i {
        assert g0.players[h].character.None? || g0.players[h].character != g0.players[i].character;
      } else {
        assert g0.players[i].character != g0.players[h].character;
      }
    }
  }

  /** The true-role half of one AssignRoles iteration. */
  lemma AssignTruthPart(g0: Game, g: Game, i: int)
    requires Valid(g0) && AgreeButDisconnected(g0, g) && 0 <= i < |g0.players| && Ready(g0, g0.players[i])
    ensures var c := g0.players[i].character.value;
            var ms := Sends(SetRoleFor(g, c, g.infos[c].roleType.value, Some(c), true).log);
            && (forall m :: m in ms ==> FromAssign(g0, m))
            && (g0.host.Some? && !IsHost(g0, g0.players[i]) ==> TruthMessage(g0, i) in ms)
  {
    TruthSends(g0, g, i);
    var c := g0.players[i].character.value;
    var ms := Sends(SetRoleFor(g, c, g.infos[c].roleType.value, Some(c), true).log);
    if ms != [] {
      TruthSound(g0, i);
    }
  }

  /** The true-role send of entry `i`: its introduction to its own client,
      unless there is no host or the entry is the host's. */
  lemma TruthSends(g0: Game, g: Game, i: int)
    requires Valid(g0) && AgreeButDisconnected(g0, g) && 0 <= i < |g0.players| && Ready(g0, g0.players[i])
    ensures g0.players[i].character.value in g.infos
    ensures var c := g0.players[i].character.value;
            var ms := Sends(SetRoleFor(g, c, g.infos[c].roleType.value, Some(c), true).log);
            && (g0.host.Some? && !IsHost(g0, g0.players[i]) ==> ms == [TruthMessage(g0, i)])
            && (g0.host.None? || IsHost(g0, g0.players[i]) ==> ms == [])
  {
    AgreeFacts(g0, g);
    var c := g0.players[i].character.value;
    AgreeAt(g0, g, c);
    assert OnRoster(g.players, c);
    RouteToOwner(g0, i);
    if g0.host.Some? {
      NotHostCharacter(g0, i);
    }
  }

  /** A non-host entry's true-role introduction is one AssignRoles may
      send. */
  lemma TruthSound(g0: Game, i: int)
    requires Valid(g0) && 0 <= i < |g0.players| && Ready(g0, g0.players[i])
    requires g0.host.Some? && !IsHost(g0, g0.players[i])
    ensures FromAssign(g0, TruthMessage(g0, i))
  {
  }

  /** Message `t` of a desync sweep goes to the client of the `t`-th
      recipient, which is on the roster and not excluded. */
  lemma DesyncAt(g: Game, subject: NetId, role: Role, targets: seq<Option<NetId>>, isIntro: bool, t: int)
    requires Spawned(g) && subject in g.infos
    requires 0 <= t < |Sends(SetRoleForDesync(g, subject, role, targets, isIntro).log)| ||
             0 <= t < |Recipients(g.players, Exclusions(subject, targets))|
    ensures var rs := Recipients(g.players, Exclusions(subject, targets));
            && t < |rs| && t < |Sends(SetRoleForDesync(g, subject, role, targets, isIntro).log)| && rs[t] in g.infos && OnRoster(g.players, rs[t]) && Some(rs[t]) !in targets
            && Sends(SetRoleForDesync(g, subject, role, targets, isIntro).log)[t] == SweepMessage(g, subject, role, rs[t], isIntro, true)
  {
    var rs := Recipients(g.players, Exclusions(subject, targets));
    SpawnedReachable(g, true);
    SweepSends(g, g.players, subject, role, Exclusions(subject, targets), isIntro, true);
    assert rs[t] in rs;
  }

  /** A message of the Crewmate half of the iteration for entry `i`. */
  lemma AssignCoverSound(g0: Game, g: Game, i: int, t: int)
    requires Valid(g0) && AgreeButDisconnected(g0, g) && 0 <= i < |g0.players| && Ready(g0, g0.players[i])
    requires Spawned(g)
    requires var c := g0.players[i].character.value;
             0 <= t < |Sends(SetRoleForDesync(g, c, Crewmate, [Some(c), HostCharacter(g)], true).log)|
    ensures var c := g0.players[i].character.value;
            FromAssign(g0, Sends(SetRoleForDesync(g, c, Crewmate, [Some(c), HostCharacter(g)], true).log)[t])
  {
    AgreeFacts(g0, g);
    var c := g0.players[i].character.value;
    AgreeAt(g0, g, c);
    var targets := [Some(c), HostCharacter(g)];
    var m := Sends(SetRoleForDesync(g, c, Crewmate, targets, true).log)[t];
    DesyncAt(g, c, Crewmate, targets, true, t);
    var r := Recipients(g.players, Exclusions(c, targets))[t];
    var j :| 0 <= j < |g.players| && g.players[j].character == Some(r) && g.players[j].id == Route(g.players, r).value;
    assert Covered(g0, i, j) by {
      assert targets[0] == Some(c) && targets[1] == HostCharacter(g0);
    }
    SweepMessageAgrees(g0, g, c, Crewmate, r, true, true);
    RouteToOwner(g0, j);
    assert m == CoverMessage(g0, i, j);
  }

  /** The Crewmate half of one AssignRoles iteration sends only messages
      AssignRoles may send. */
  lemma AssignCoverPartSound(g0: Game, g: Game, i: int)
    requires Valid(g0) && AgreeButDisconnected(g0, g) && 0 <= i < |g0.players| && Ready(g0, g0.players[i])
    ensures Spawned(g)
    ensures var c := g0.players[i].character.value;
            var ms := Sends(SetRoleForDesync(g, c, Crewmate, [Some(c), HostCharacter(g)], true).log);
            forall m :: m in ms ==> FromAssign(g0, m)
  {
    AgreeFacts(g0, g);
    var c := g0.players[i].character.value;
    var ms := Sends(SetRoleForDesync(g, c, Crewmate, [Some(c), HostCharacter(g)], true).log);
    forall m | m in ms
      ensures FromAssign(g0, m)
    {
      var t :| 0 <= t < |ms| && ms[t] == m;
      AssignCoverSound(g0, g, i, t);
    }
  }

  /** The Crewmate half of one AssignRoles iteration reaches every covered
      entry. */
  lemma AssignCoverPart(g0: Game, g: Game, i: int)
    requires Valid(g0) && AgreeButDisconnected(g0, g) && 0 <= i < |g0.players| && Ready(g0, g0.players[i])
    ensures Spawned(g)
    ensures var c := g0.players[i].character.value;
            var ms := Sends(SetRoleForDesync(g, c, Crewmate, [Some(c), HostCharacter(g)], true).log);
            forall j :: 0 <= j < |g0.players| && Covered(g0, i, j) ==> CoverMessage(g0, i, j) in ms
  {
    AgreeFacts(g0, g);
    forall j | 0 <= j < |g0.players| && Covered(g0, i, j)
      ensures var c := g0.players[i].character.value;
              CoverMessage(g0, i, j) in Sends(SetRoleForDesync(g, c, Crewmate, [Some(c), HostCharacter(g)], true).log)
    {
      AssignCoverComplete(g0, g, i, j);
    }
  }

  /** A covered entry's client gets the Crewmate introduction. */
  lemma AssignCoverComplete(g0: Game, g: Game, i: int, j: int)
    requires Valid(g0) && AgreeButDisconnected(g0, g) && 0 <= i < |g0.players| && Ready(g0, g0.players[i])
    requires 0 <= j < |g0.players| && Covered(g0, i, j)
    ensures Spawned(g)
    ensures var c := g0.players[i].character.value;
            CoverMessage(g0, i, j) in Sends(SetRoleForDesync(g, c, Crewmate, [Some(c), HostCharacter(g)], true).log)
  {
    AgreeFacts(g0, g);
    var c := g0.players[i].character.value;
    var r := g0.players[j].character.value;
    AgreeAt(g0, g, c);
    AgreeAt(g0, g, r);
    var targets := [Some(c), HostCharacter(g)];
    var ms := Sends(SetRoleForDesync(g, c, Crewmate, targets, true).log);
    var rs := Recipients(g.players, Exclusions(c, targets));
    assert OnRoster(g.players, r);
    assert r in rs;
    var t :| 0 <= t < |rs| && rs[t] == r;
    DesyncAt(g, c, Crewmate, targets, true, t);
    RouteToOwner(g0, j);
    assert ms[t] == CoverMessage(g0, i, j);
  }

  /** One AssignRoles iteration changes only Disconnected flags. */
  lemma AssignOneState(g0: Game, g: Game, i: int)
    requires Valid(g0) && AgreeButDisconnected(g0, g) && 0 <= i < |g0.players| && Ready(g0, g0.players[i])
    ensures Spawned(g) && Ready(g, g0.players[i])
    ensures AgreeButDisconnected(g0, AssignOne(g, g0.players[i].character.value).game)
  {
  }

  /** One AssignRoles iteration sends only messages AssignRoles may send. */
  lemma AssignOneSound(g0: Game, g: Game, i: int)
    requires Valid(g0) && AgreeButDisconnected(g0, g) && 0 <= i < |g0.players| && Ready(g0, g0.players[i])
    ensures Spawned(g) && Ready(g, g0.players[i])
    ensures forall m :: m in Sends(AssignOne(g, g0.players[i].character.value).log) ==> FromAssign(g0, m)
  {
    AgreeFacts(g0, g);
    var c := g0.players[i].character.value;
    var truth := SetRoleFor(g, c, g.infos[c].roleType.value, Some(c), true);
    AssignTruthPart(g0, g, i);
    AgreeTrans(g0, g, truth.game);
    AssignCoverPartSound(g0, truth.game, i);
    AgreeFacts(g0, truth.game);
  }

  /** One AssignRoles iteration tells a non-host player its true role. */
  lemma AssignOneTruth(g0: Game, g: Game, i: int)
    requires Valid(g0) && AgreeButDisconnected(g0, g) && 0 <= i < |g0.players| && Ready(g0, g0.players[i])
    requires g0.host.Some? && !IsHost(g0, g0.players[i])
    ensures Spawned(g) && Ready(g, g0.players[i])
    ensures TruthMessage(g0, i) in Sends(AssignOne(g, g0.players[i].character.value).log)
  {
    AgreeFacts(g0, g);
    AssignTruthPart(g0, g, i);
  }

  /** One AssignRoles iteration tells every covered entry Crewmate, with the
      impostor-team overlay. */
  lemma AssignOneCover(g0: Game, g: Game, i: int)
    requires Valid(g0) && AgreeButDisconnected(g0, g) && 0 <= i < |g0.players| && Ready(g0, g0.players[i])
    ensures Spawned(g) && Ready(g, g0.players[i])
    ensures forall j :: 0 <= j < |g0.players| && Covered(g0, i, j) ==>
              CoverMessage(g0, i, j) in Sends(AssignOne(g, g0.players[i].character.value).log)
  {
    AgreeFacts(g0, g);
    var c := g0.players[i].character.value;
    var truth := SetRoleFor(g, c, g.infos[c].roleType.value, Some(c), true);
    AgreeTrans(g0, g, truth.game);
    AssignCoverPart(g0, truth.game, i);
    AgreeFacts(g0, truth.game);
  }

  lemma AssignFromStep(g: Game, k: nat)
    requires Spawned(g) && k < |g.players| && Ready(g, g.players[k])
    ensures var one := AssignOne(g, g.players[k].character.value);
            Sends(AssignFrom(g, k).log) == Sends(one.log) + Sends(AssignFrom(one.game, k + 1).log)
  {
  }

  lemma {:induction false} AssignFromSound(g0: Game, g: Game, k: nat)
    requires Valid(g0) && AgreeButDisconnected(g0, g) && k <= |g0.players|
    ensures Spawned(g)
    ensures forall m :: m in Sends(AssignFrom(g, k).log) ==> FromAssign(g0, m)
    decreases |g0.players| - k
  {
    AgreeFacts(g0, g);
    if k < |g0.players| {
      if !Ready(g0, g0.players[k]) {
        AssignFromSound(g0, g, k + 1);
      } else {
        var one := AssignOne(g, g0.players[k].character.value);
        AssignOneState(g0, g, k);
        AssignOneSound(g0, g, k);
        AssignFromSound(g0, one.game, k + 1);
        AssignFromStep(g, k);
      }
    }
  }

  lemma {:induction false} AssignFromTruth(g0: Game, g: Game, k: nat)
    requires Valid(g0) && AgreeButDisconnected(g0, g) && k <= |g0.players|
    ensures Spawned(g)
    ensures forall i {:trigger TruthMessage(g0, i)} :: k <= i < |g0.players| && Ready(g0, g0.players[i]) && g0.host.Some? && !IsHost(g0, g0.players[i]) ==>
              TruthMessage(g0, i) in Sends(AssignFrom(g, k).log)
    decreases |g0.players| - k, 1
  {
    AgreeFacts(g0, g);
    if k < |g0.players| {
      if !Ready(g0, g0.players[k]) {
        AssignFromTruth(g0, g, k + 1);
        AssignFromSkip(g, k);
        TruthSkip(g0, k, Sends(AssignFrom(g, k + 1).log));
      } else {
        AssignFromTruthReady(g0, g, k);
      }
    }
  }

  /** A roster entry that is not ready contributes nothing. */
  lemma AssignFromSkip(g: Game, k: nat)
    requires Spawned(g) && k < |g.players| && !Ready(g, g.players[k])
    ensures AssignFrom(g, k) == AssignFrom(g, k + 1)
  {
  }

  /** Truth messages of the entries after a skipped one cover it too. */
  lemma TruthSkip(g0: Game, k: nat, ms: seq<Message>)
    requires Spawned(g0) && k < |g0.players| && !Ready(g0, g0.players[k])
    requires forall i {:trigger TruthMessage(g0, i)} :: k + 1 <= i < |g0.players| && Ready(g0, g0.players[i]) && g0.host.Some? && !IsHost(g0, g0.players[i]) ==>
               TruthMessage(g0, i) in ms
    ensures forall i {:trigger TruthMessage(g0, i)} :: k <= i < |g0.players| && Ready(g0, g0.players[i]) && g0.host.Some? && !IsHost(g0, g0.players[i]) ==>
              TruthMessage(g0, i) in ms
  {
  }

  lemma {:induction false} AssignFromTruthReady(g0: Game, g: Game, k: nat)
    requires Valid(g0) && AgreeButDisconnected(g0, g) && k < |g0.players| && Ready(g0, g0.players[k])
    ensures Spawned(g)
    ensures forall i {:trigger TruthMessage(g0, i)} :: k <= i < |g0.players| && Ready(g0, g0.players[i]) && g0.host.Some? && !IsHost(g0, g0.players[i]) ==>
              TruthMessage(g0, i) in Sends(AssignFrom(g, k).log)
    decreases |g0.players| - k, 0
  {
    AgreeFacts(g0, g);
    var one := AssignOne(g, g0.players[k].character.value);
    AssignOneState(g0, g, k);
    AssignFromTruth(g0, one.game, k + 1);
    AssignFromStep(g, k);
    var head := Sends(one.log);
    var tail := Sends(AssignFrom(one.game, k + 1).log);
    var ms := Sends(AssignFrom(g, k).log);
    assert ms == head + tail;
    forall i | k <= i < |g0.players| && Ready(g0, g0.players[i]) && g0.host.Some? && !IsHost(g0, g0.players[i])
      ensures TruthMessage(g0, i) in ms
    {
      if i == k {
        AssignOneTruth(g0, g, k);
        assert TruthMessage(g0, i) in head;
      } else {
        assert TruthMessage(g0, i) in tail;
      }
    }
  }


  lemma {:induction false} AssignFromCover(g0: Game, g: Game, k: nat)
    requires Valid(g0) && AgreeButDisconnected(g0, g) && k <= |g0.players|
    ensures Spawned(g)
    ensures forall i, j {:trigger Covered(g0, i, j)} :: k <= i < |g0.players| && Ready(g0, g0.players[i]) && 0 <= j < |g0.players| && Covered(g0, i, j) ==>
              CoverMessage(g0, i, j) in Sends(AssignFrom(g, k).log)
    decreases |g0.players| - k, 1
  {
    AgreeFacts(g0, g);
    if k < |g0.players| {
      if !Ready(g0, g0.players[k]) {
        AssignFromCover(g0, g, k + 1);
      } else {
        AssignFromCoverReady(g0, g, k);
      }
    }
  }

  lemma {:induction false} AssignFromCoverReady(g0: Game, g: Game, k: nat)
    requires Valid(g0) && AgreeButDisconnected(g0, g) && k < |g0.players| && Ready(g0, g0.players[k])
    ensures Spawned(g)
    ensures forall i, j {:trigger Covered(g0, i, j)} :: k <= i < |g0.players| && Ready(g0, g0.players[i]) && 0 <= j < |g0.players| && Covered(g0, i, j) ==>
              CoverMessage(g0, i, j) in Sends(AssignFrom(g, k).log)
    decreases |g0.players| - k, 0
  {
    AgreeFacts(g0, g);
    var one := AssignOne(g, g0.players[k].character.value);
    AssignOneState(g0, g, k);
    AssignOneCover(g0, g, k);
    AssignFromCover(g0, one.game, k + 1);
    AssignFromStep(g, k);
    var head := Sends(one.log);
    var tail := Sends(AssignFrom(one.game, k + 1).log);
    var ms := Sends(AssignFrom(g, k).log);
    assert ms == head + tail;
    CoverConcat(g0, k, head, tail, ms);
  }


  /** The cover messages of entry `k` and of the entries after it, in the
      concatenation of their logs. */
  lemma CoverConcat(g0: Game, k: nat, head: seq<Message>, tail: seq<Message>, ms: seq<Message>)
    requires Spawned(g0) && k < |g0.players| && ms == head + tail
    requires Ready(g0, g0.players[k]) ==>
               forall j :: 0 <= j < |g0.players| && Covered(g0, k, j) ==> CoverMessage(g0, k, j) in head
    requires forall i, j {:trigger Covered(g0, i, j)} :: k + 1 <= i < |g0.players| && Ready(g0, g0.players[i]) && 0 <= j < |g0.players| && Covered(g0, i, j) ==>
               CoverMessage(g0, i, j) in tail
    ensures forall i, j {:trigger Covered(g0, i, j)} :: k <= i < |g0.players| && Ready(g0, g0.players[i]) && 0 <= j < |g0.players| && Covered(g0, i, j) ==>
              CoverMessage(g0, i, j) in ms
  {
  }

  /** Game start, in a valid game: the messages sent are exactly the
      expected ones. Each non-host player with a role is told it, and for
      each player with a role every other spawned character but the host's
      is told Crewmate, except that impostors see their fellow impostors as
      Impostor or ImpostorGhost; nothing else is sent. Every one of these
      messages is an introduction, so its snapshot is the subject's whole
      info, true role included. */
  lemma AssignRolesSends(g: Game)
    requires Valid(g)
    ensures var ms := Sends(AssignRoles(g).log);
            && (forall m :: m in ms ==> FromAssign(g, m))
            && (forall i :: 0 <= i < |g.players| && Ready(g, g.players[i]) && g.host.Some? && !IsHost(g, g.players[i]) ==>
                  TruthMessage(g, i) in ms)
            && (forall i, j :: 0 <= i < |g.players| && Ready(g, g.players[i]) && 0 <= j < |g.players| && Covered(g, i, j) ==>
                  CoverMessage(g, i, j) in ms)
  {
    AssignFromSound(g, g, 0);
    AssignFromTruth(g, g, 0);
    AssignFromCover(g, g, 0);
  }

  /** What game start shows a client about a character it does not
      control: the SetRole call shows the subject as Crewmate, or as
      Impostor/ImpostorGhost when both are impostors, while the snapshot
      framing the call is the subject's own info, with its true role. */
  lemma AssignRolesOthersView(g: Game)
    requires Valid(g)
    ensures var ms := Sends(AssignRoles(g).log);
            forall t, j :: 0 <= t < |ms| && 0 <= j < |g.players| && ms[t].to == Only(g.players[j].id) &&
                           g.players[j].character != Some(ms[t].subject) ==>
              && g.players[j].character.Some?
              && ms[t].subject in g.infos && g.players[j].character.value in g.infos
              && ms[t].call == Some(Call.SetRole(Shown(g, ms[t].subject, g.players[j].character.value, Crewmate, true)))
              && ms[t].snapshot == IntroSnapshot(g.infos[ms[t].subject], true)
  {
    AssignRolesSends(g);
    var ms := Sends(AssignRoles(g).log);
    forall t, j | 0 <= t < |ms| && 0 <= j < |g.players| && ms[t].to == Only(g.players[j].id) &&
                  g.players[j].character != Some(ms[t].subject)
      ensures && g.players[j].character.Some?
              && ms[t].subject in g.infos && g.players[j].character.value in g.infos
              && ms[t].call == Some(Call.SetRole(Shown(g, ms[t].subject, g.players[j].character.value, Crewmate, true)))
              && ms[t].snapshot == IntroSnapshot(g.infos[ms[t].subject], true)
    {
      assert ms[t] in ms;
      AssignMessageOthersView(g, ms[t], j);
    }
  }

  /** One game-start message, seen by a client that does not control its
      subject. */
  lemma AssignMessageOthersView(g: Game, m: Message, j: int)
    requires Valid(g) && FromAssign(g, m)
    requires 0 <= j < |g.players| && m.to == Only(g.players[j].id) && g.players[j].character != Some(m.subject)
    ensures && g.players[j].character.Some?
            && m.subject in g.infos && g.players[j].character.value in g.infos
            && m.call == Some(Call.SetRole(Shown(g, m.subject, g.players[j].character.value, Crewmate, true)))
            && m.snapshot == IntroSnapshot(g.infos[m.subject], true)
  {
    forall i | 0 <= i < |g.players| && Ready(g, g.players[i]) && g.host.Some? && !IsHost(g, g.players[i])
      ensures m != TruthMessage(g, i)
    {
      if i == j {
        assert g.players[i].character == Some(TruthMessage(g, i).subject);
      } else {
        assert TruthMessage(g, i).to != m.to;
      }
    }
    var i, k :| 0 <= i < |g.players| && Ready(g, g.players[i]) && 0 <= k < |g.players| && Covered(g, i, k) && m == CoverMessage(g, i, k);
    assert g.players[k].id == g.players[j].id;
    assert k == j;
  }

  // ---------------------------------------------------------------------
  // Resync

  /** The number of leading roster entries that are ready. */
  function ReadyPrefix(g: Game, k: nat): (n: nat)
    requires k <= |g.players|
    ensures k <= n <= |g.players|
    ensures forall i :: k <= i < n ==> Ready(g, g.players[i])
    ensures n < |g.players| ==> !Ready(g, g.players[n])
    decreases |g.players| - k
  {
    if k == |g.players| || !Ready(g, g.players[k]) then k else ReadyPrefix(g, k + 1)
  }

  /** The resync message for the ready roster entry `i`. */
  function ResyncMessage(g: Game, i: int): Message
    requires g.host.Some? && 0 <= i < |g.players| && Ready(g, g.players[i])
  {
    var c := g.players[i].character.value;
    Message(AllExcept(g.host.value), c, None, Some(Call.SetRole(g.infos[c].roleType.value)))
  }

  /** One ready entry of the resync loop, with a host. */
  lemma ResyncStep(g: Game, k: nat)
    requires g.host.Some? && k < |g.players| && Ready(g, g.players[k])
    ensures ResyncFrom(g, k).error == ResyncFrom(g, k + 1).error
    ensures Sends(ResyncFrom(g, k).log) == [ResyncMessage(g, k)] + Sends(ResyncFrom(g, k + 1).log)
  {
  }

  /** A ready entry of the resync loop with no host faults at once. */
  lemma ResyncStepNoHost(g: Game, k: nat)
    requires g.host.None? && k < |g.players| && Ready(g, g.players[k])
    ensures ResyncFrom(g, k).error == Some(NoHost) && Sends(ResyncFrom(g, k).log) == []
  {
  }

  /** Resync covers exactly the ready prefix of the roster: each of those
      players' true roles goes to every client but the host's, in roster
      order, and nothing after the first player that is not ready. With no
      host the first send faults and nothing is sent. */
  lemma ResyncPrefix(g: Game, k: nat)
    requires k <= |g.players|
    ensures var o := ResyncFrom(g, k);
            var n := ReadyPrefix(g, k);
            && (g.host.Some? ==>
                  && o.error.None?
                  && |Sends(o.log)| == n - k
                  && forall j :: 0 <= j < n - k ==> Sends(o.log)[j] == ResyncMessage(g, k + j))
            && (g.host.None? ==> Sends(o.log) == [] && (o.error == Some(NoHost) <==> n > k))
  {
    if g.host.Some? {
      ResyncPrefixHost(g, k);
    } else if k < |g.players| && Ready(g, g.players[k]) {
      ResyncStepNoHost(g, k);
    }
  }

  lemma {:induction false} ResyncPrefixHost(g: Game, k: nat)
    requires g.host.Some? && k <= |g.players|
    ensures var o := ResyncFrom(g, k);
            var n := ReadyPrefix(g, k);
            && o.error.None?
            && |Sends(o.log)| == n - k
            && forall j :: 0 <= j < n - k ==> Sends(o.log)[j] == ResyncMessage(g, k + j)
    decreases |g.players| - k, 1
  {
    if k < |g.players| && Ready(g, g.players[k]) {
      ResyncPrefixReady(g, k);
    } else {
      assert ResyncFrom(g, k) == Outcome(g, [], None);
    }
  }

  lemma {:induction false} ResyncPrefixReady(g: Game, k: nat)
    requires g.host.Some? && k < |g.players| && Ready(g, g.players[k])
    ensures var o := ResyncFrom(g, k);
            var n := ReadyPrefix(g, k);
            && o.error.None?
            && |Sends(o.log)| == n - k
            && forall j :: 0 <= j < n - k ==> Sends(o.log)[j] == ResyncMessage(g, k + j)
    decreases |g.players| - k, 0
  {
    ResyncStep(g, k);
    ResyncPrefixHost(g, k + 1);
    ResyncCons(g, k, Sends(ResyncFrom(g, k + 1).log), Sends(ResyncFrom(g, k).log));
  }


  lemma ResyncCons(g: Game, k: nat, tail: seq<Message>, ms: seq<Message>)
    requires g.host.Some? && k < |g.players| && Ready(g, g.players[k])
    requires ms == [ResyncMessage(g, k)] + tail
    requires |tail| == ReadyPrefix(g, k + 1) - (k + 1)
    requires forall j :: 0 <= j < ReadyPrefix(g, k + 1) - (k + 1) ==> tail[j] == ResyncMessage(g, k + 1 + j)
    ensures |ms| == ReadyPrefix(g, k) - k
    ensures forall j :: 0 <= j < ReadyPrefix(g, k) - k ==> ms[j] == ResyncMessage(g, k + j)
  {
    assert ReadyPrefix(g, k) == ReadyPrefix(g, k + 1);
  }

  lemma ResyncRolesPrefix(g: Game)
    ensures var o := ResyncRoles(g);
            var n := ReadyPrefix(g, 0);
            && (g.host.Some? ==>
                  && o.error.None?
                  && |Sends(o.log)| == n
                  && forall i :: 0 <= i < n ==> Sends(o.log)[i] == ResyncMessage(g, i))
            && (g.host.None? ==> Sends(o.log) == [] && (o.error == Some(NoHost) <==> n > 0))
  {
    ResyncPrefix(g, 0);
    if g.host.Some? {
      var ms := Sends(ResyncFrom(g, 0).log);
      forall i | 0 <= i < ReadyPrefix(g, 0)
        ensures ms[i] == ResyncMessage(g, i)
      {
        assert ms[i] == ResyncMessage(g, 0 + i);
      }
    }
  }


  // ---------------------------------------------------------------------
  // Data sync

  /** The snapshot of character `c` that data sync sends. */
  function SyncMessage(g: Game, c: NetId): Message
    requires g.host.Some? && c in g.infos
  {
    Message(AllExcept(g.host.value), c, Some(g.infos[c]), None)
  }

  /** Data sync sends, to every client but the host's, the current
      snapshot of each spawned roster character in roster order, and
      nothing at all when there is no host. */
  lemma SyncFromSends(g: Game, k: nat)
    requires Spawned(g) && k <= |g.players|
    ensures var rs := Recipients(g.players[k..], []);
            var ms := Sends(SyncFrom(g, k).log);
            && (g.host.None? ==> ms == [])
            && (g.host.Some? ==>
                  && |ms| == |rs|
                  && forall i :: 0 <= i < |rs| ==> rs[i] in g.infos && ms[i] == Message(AllExcept(g.host.value), rs[i], Some(g.infos[rs[i]]), None))
  {
    if g.host.Some? {
      SyncFromHost(g, k);
    } else {
      SyncFromNoHost(g, k);
    }
  }

  lemma {:induction false} SyncFromNoHost(g: Game, k: nat)
    requires Spawned(g) && g.host.None? && k <= |g.players|
    ensures Sends(SyncFrom(g, k).log) == []
    decreases |g.players| - k
  {
    if k < |g.players| {
      SyncFromNoHost(g, k + 1);
    }
  }

  /** One roster entry of the data sync loop. */
  lemma SyncStep(g: Game, k: nat)
    requires Spawned(g) && g.host.Some? && k < |g.players|
    ensures var c := g.players[k].character;
            Sends(SyncFrom(g, k).log) ==
              (if c.Some? then [SyncMessage(g, c.value)] else []) + Sends(SyncFrom(g, k + 1).log)
  {
  }

  lemma {:induction false} SyncFromHost(g: Game, k: nat)
    requires Spawned(g) && g.host.Some? && k <= |g.players|
    ensures var rs := Recipients(g.players[k..], []);
            var ms := Sends(SyncFrom(g, k).log);
            && |ms| == |rs|
            && forall i :: 0 <= i < |rs| ==> rs[i] in g.infos && ms[i] == SyncMessage(g, rs[i])
    decreases |g.players| - k
  {
    var ps := g.players[k..];
    if k < |g.players| {
      SyncFromHost(g, k + 1);
      SyncStep(g, k);
      assert ps[1..] == g.players[k + 1..] && ps[0] == g.players[k];
      RecipientsCons(ps, []);
      SyncCons(g, ps[0].character, Recipients(ps[1..], []), Sends(SyncFrom(g, k + 1).log),
               Recipients(ps, []), Sends(SyncFrom(g, k).log));
    } else {
      assert ps == [];
    }
  }

  lemma SyncCons(g: Game, c: Option<NetId>, restRs: seq<NetId>, restMs: seq<Message>, rs: seq<NetId>, ms: seq<Message>)
    requires g.host.Some? && (c.Some? ==> c.value in g.infos)
    requires rs == (if c.Some? then [c.value] else []) + restRs
    requires ms == (if c.Some? then [SyncMessage(g, c.value)] else []) + restMs
    requires |restMs| == |restRs| && forall i :: 0 <= i < |restRs| ==> restRs[i] in g.infos && restMs[i] == SyncMessage(g, restRs[i])
    ensures |ms| == |rs| && forall i :: 0 <= i < |rs| ==> rs[i] in g.infos && ms[i] == SyncMessage(g, rs[i])
  {
  }

  lemma SyncDataSends(g: Game)
    requires Spawned(g)
    ensures var rs := Recipients(g.players, []);
            var ms := Sends(SyncData(g).log);
            && (g.host.None? ==> ms == [])
            && (g.host.Some? ==>
                  && |ms| == |rs|
                  && forall i :: 0 <= i < |rs| ==> rs[i] in g.infos && ms[i] == Message(AllExcept(g.host.value), rs[i], Some(g.infos[rs[i]]), None))
  {
    assert g.players[0..] == g.players;
    SyncFromSends(g, 0);
  }

  // ---------------------------------------------------------------------
  // Black-screen fix

  /** Roster entry `i` is given a stand-in: a non-host, non-impostor
      spawned character for which an eligible stand-in exists. */
  predicate Pairable(g: Game, i: int, exiled: Option<NetId>)
    requires Spawned(g) && 0 <= i < |g.players|
  {
    var p := g.players[i];
    && !IsHost(g, p) && p.character.Some? && !g.infos[p.character.value].isImpostor
    && StandIn(g, p.character.value, exiled).Some?
  }

  function PairOf(g: Game, i: int, exiled: Option<NetId>): StandInPair
    requires Spawned(g) && 0 <= i < |g.players| && Pairable(g, i, exiled)
  {
    var c := g.players[i].character.value;
    StandInPair(c, StandIn(g, c, exiled).value)
  }

  /** One roster entry of the grant phase. */
  lemma GrantStep(g: Game, k: nat, exiled: Option<NetId>)
    requires Spawned(g) && k < |g.players|
    ensures !Pairable(g, k, exiled) ==> GrantFrom(g, k, exiled) == GrantFrom(g, k + 1, exiled)
    ensures Pairable(g, k, exiled) ==>
              var pr := PairOf(g, k, exiled);
              var rest := GrantFrom(g, k + 1, exiled);
              && GrantFrom(g, k, exiled).pairs == [pr] + rest.pairs
              && Sends(GrantFrom(g, k, exiled).outcome.log) ==
                   Sends(SetRoleFor(g, pr.standIn, Impostor, Some(pr.player), false).log) + Sends(rest.outcome.log)
  {
  }

  /** The grant phase records exactly one pair for each roster entry that
      gets a stand-in, and no other. */
  lemma {:induction false} GrantPairs(g: Game, k: nat, exiled: Option<NetId>)
    requires Spawned(g) && k <= |g.players|
    ensures forall pr :: pr in GrantFrom(g, k, exiled).pairs <==>
              exists i :: k <= i < |g.players| && Pairable(g, i, exiled) && pr == PairOf(g, i, exiled)
    decreases |g.players| - k
  {
    if k < |g.players| {
      GrantPairs(g, k + 1, exiled);
      GrantStep(g, k, exiled);
      var pairs := GrantFrom(g, k, exiled).pairs;
      var rest := GrantFrom(g, k + 1, exiled).pairs;
      forall pr | (exists i :: k <= i < |g.players| && Pairable(g, i, exiled) && pr == PairOf(g, i, exiled))
        ensures pr in pairs
      {
        var i :| k <= i < |g.players| && Pairable(g, i, exiled) && pr == PairOf(g, i, exiled);
        if i > k {
          assert pr in rest;
        }
      }
    }
  }

  /** The Impostor message that shows `pr`'s stand-in to its player. */
  function GrantMessage(g: Game, pr: StandInPair): Message
    requires OnRoster(g.players, pr.player)
  {
    Message(Only(Route(g.players, pr.player).value), pr.standIn, None, Some(Call.SetRole(Impostor)))
  }

  lemma GrantOne(g: Game, k: nat, exiled: Option<NetId>)
    requires Valid(g) && k < |g.players| && Pairable(g, k, exiled) && g.host.Some?
    ensures var pr := PairOf(g, k, exiled);
            && OnRoster(g.players, pr.player)
            && Sends(SetRoleFor(g, pr.standIn, Impostor, Some(pr.player), false).log) == [GrantMessage(g, pr)]
  {
    NotHostCharacter(g, k);
    assert OnRoster(g.players, PairOf(g, k, exiled).player);
  }

  /** With no host every grant send faults and nothing is sent. */
  lemma {:induction false} GrantSendsNoHost(g: Game, k: nat, exiled: Option<NetId>)
    requires Spawned(g) && g.host.None? && k <= |g.players|
    ensures Sends(GrantFrom(g, k, exiled).outcome.log) == []
    decreases |g.players| - k
  {
    if k < |g.players| {
      GrantSendsNoHost(g, k + 1, exiled);
      GrantStep(g, k, exiled);
    }
  }

  /** The grant phase sends, for each recorded pair in order, one Impostor
      message on the stand-in to the player's client. */
  lemma {:induction false} GrantSends(g: Game, k: nat, exiled: Option<NetId>)
    requires Valid(g) && g.host.Some? && k <= |g.players|
    ensures var r := GrantFrom(g, k, exiled);
            var ms := Sends(r.outcome.log);
            && |ms| == |r.pairs|
            && forall j :: 0 <= j < |r.pairs| ==> OnRoster(g.players, r.pairs[j].player) && ms[j] == GrantMessage(g, r.pairs[j])
    decreases |g.players| - k
  {
    if k < |g.players| {
      GrantSends(g, k + 1, exiled);
      GrantStep(g, k, exiled);
      if Pairable(g, k, exiled) {
        var pr := PairOf(g, k, exiled);
        var rest := GrantFrom(g, k + 1, exiled);
        var r := GrantFrom(g, k, exiled);
        GrantOne(g, k, exiled);
        GrantCons(g, pr, rest.pairs, Sends(rest.outcome.log), r.pairs, Sends(r.outcome.log));
      }
    }
  }

  lemma GrantCons(g: Game, pr: StandInPair, restPairs: seq<StandInPair>, restMs: seq<Message>, pairs: seq<StandInPair>, ms: seq<Message>)
    requires OnRoster(g.players, pr.player) && pairs == [pr] + restPairs && ms == [GrantMessage(g, pr)] + restMs
    requires |restMs| == |restPairs|
    requires forall j :: 0 <= j < |restPairs| ==> OnRoster(g.players, restPairs[j].player) && restMs[j] == GrantMessage(g, restPairs[j])
    ensures |ms| == |pairs|
    ensures forall j :: 0 <= j < |pairs| ==> OnRoster(g.players, pairs[j].player) && ms[j] == GrantMessage(g, pairs[j])
  {
  }

  /** The revert of `pr` on the state after the second delay: the stand-in
      is shown to the player's client as CrewmateGhost if it is dead by
      then, else as Crewmate. */
  function RevertMessage(g: Game, pr: StandInPair): Message
    requires OnRoster(g.players, pr.player) && pr.standIn in g.infos
  {
    Message(Only(Route(g.players, pr.player).value), pr.standIn, None,
            Some(Call.SetRole(if g.infos[pr.standIn].isDead then CrewmateGhost else Crewmate)))
  }

  /** Every recorded player is still on the roster, controlled by a client
      that is not the host's. */
  predicate Settled(g: Game, pairs: seq<StandInPair>)
  {
    && g.host.Some?
    && forall j :: 0 <= j < |pairs| ==> OnRoster(g.players, pairs[j].player) && Some(pairs[j].player) != HostCharacter(g)
  }

  /** The revert phase sends at most one message per pair, and nothing
      when there is no host. */
  lemma {:induction false} RevertSendsBound(g: Game, pairs: seq<StandInPair>)
    requires forall i :: 0 <= i < |pairs| ==> pairs[i].standIn in g.infos
    ensures var ms := Sends(RevertEach(g, pairs).log);
            |ms| <= |pairs| && (g.host.None? ==> ms == [])
    decreases |pairs|
  {
    if pairs != [] {
      RevertSendsBound(g, pairs[1..]);
      RevertOne(g, pairs[0]);
    }
  }

  /** The revert phase sends one revert per pair, in order, when every
      recorded player is still reachable. */
  lemma {:induction false} RevertSends(g: Game, pairs: seq<StandInPair>)
    requires forall i :: 0 <= i < |pairs| ==> pairs[i].standIn in g.infos
    requires Settled(g, pairs)
    ensures var ms := Sends(RevertEach(g, pairs).log);
            |ms| == |pairs| && forall j :: 0 <= j < |pairs| ==> ms[j] == RevertMessage(g, pairs[j])
    decreases |pairs|, 1
  {
    if pairs != [] {
      RevertSendsCons(g, pairs);
    }
  }

  lemma {:induction false} RevertSendsCons(g: Game, pairs: seq<StandInPair>)
    requires pairs != [] && forall i :: 0 <= i < |pairs| ==> pairs[i].standIn in g.infos
    requires Settled(g, pairs)
    ensures var ms := Sends(RevertEach(g, pairs).log);
            |ms| == |pairs| && forall j :: 0 <= j < |pairs| ==> ms[j] == RevertMessage(g, pairs[j])
    decreases |pairs|, 0
  {
    SettledTail(g, pairs);
    RevertSends(g, pairs[1..]);
    RevertHead(g, pairs);
    var tail := Sends(RevertEach(g, pairs[1..]).log);
    var ms := [RevertMessage(g, pairs[0])] + tail;
    RevertCons(g, pairs, tail, ms);
    assert Sends(RevertEach(g, pairs).log) == ms;
  }


  /** The revert phase's messages: the first pair's send, then the rest's. */
  lemma RevertStep(g: Game, pairs: seq<StandInPair>)
    requires pairs != [] && forall i :: 0 <= i < |pairs| ==> pairs[i].standIn in g.infos
    ensures var s := pairs[0].standIn;
            Sends(RevertEach(g, pairs).log) ==
              Sends(SetRoleFor(g, s, if g.infos[s].isDead then CrewmateGhost else Crewmate, Some(pairs[0].player), false).log)
              + Sends(RevertEach(g, pairs[1..]).log)
  {
  }

  /** The first pair's revert reaches its player when the player is still
      controlled by a non-host client. */
  lemma RevertHead(g: Game, pairs: seq<StandInPair>)
    requires pairs != [] && forall i :: 0 <= i < |pairs| ==> pairs[i].standIn in g.infos
    requires g.host.Some? && OnRoster(g.players, pairs[0].player) && Some(pairs[0].player) != HostCharacter(g)
    ensures Sends(RevertEach(g, pairs).log) == [RevertMessage(g, pairs[0])] + Sends(RevertEach(g, pairs[1..]).log)
  {
    RevertReaches(g, pairs[0]);
    RevertStep(g, pairs);
  }

  lemma RevertReaches(g: Game, pr: StandInPair)
    requires pr.standIn in g.infos
    requires g.host.Some? && OnRoster(g.players, pr.player) && Some(pr.player) != HostCharacter(g)
    ensures Sends(SetRoleFor(g, pr.standIn, if g.infos[pr.standIn].isDead then CrewmateGhost else Crewmate, Some(pr.player), false).log)
            == [RevertMessage(g, pr)]
  {
  }

  lemma RevertCons(g: Game, pairs: seq<StandInPair>, restMs: seq<Message>, ms: seq<Message>)
    requires pairs != [] && forall i :: 0 <= i < |pairs| ==> pairs[i].standIn in g.infos
    requires Settled(g, pairs) && Settled(g, pairs[1..])
    requires ms == [RevertMessage(g, pairs[0])] + restMs
    requires |restMs| == |pairs[1..]|
    requires forall j :: 0 <= j < |pairs[1..]| ==> restMs[j] == RevertMessage(g, pairs[1..][j])
    ensures |ms| == |pairs|
    ensures forall j :: 0 <= j < |pairs| ==> ms[j] == RevertMessage(g, pairs[j])
  {
  }

  lemma SettledTail(g: Game, pairs: seq<StandInPair>)
    requires pairs != [] && Settled(g, pairs)
    ensures Settled(g, pairs[1..])
    ensures OnRoster(g.players, pairs[0].player) && Some(pairs[0].player) != HostCharacter(g)
  {
  }

  /** The revert send for one pair. */
  lemma RevertOne(g: Game, pr: StandInPair)
    requires pr.standIn in g.infos
    ensures var ms := Sends(SetRoleFor(g, pr.standIn, if g.infos[pr.standIn].isDead then CrewmateGhost else Crewmate, Some(pr.player), false).log);
            && |ms| <= 1
            && (g.host.None? ==> ms == [])
            && (g.host.Some? && OnRoster(g.players, pr.player) && Some(pr.player) != HostCharacter(g) ==> ms == [RevertMessage(g, pr)])
  {
  }

  /** The black-screen fix in full. When it runs, its pairs are exactly
      those of the grant phase's roster (each with the first eligible
      stand-in), the grant phase shows each stand-in as Impostor to its
      player once, in a valid game with a host, and the revert phase shows
      it back once per pair when every recorded player is still reachable. */
  lemma FixBlackScreenSends(g: Game, mid: Game, after: Game, exiled: Option<NetId>)
    requires Valid(mid) && mid.infos.Keys <= after.infos.Keys
    ensures var r := FixBlackScreen(g, mid, after, exiled);
            r.Ran? ==>
              && (forall pr :: pr in r.pairs <==>
                    exists i :: 0 <= i < |mid.players| && Pairable(mid, i, exiled) && pr == PairOf(mid, i, exiled))
              && (mid.host.Some? ==>
                    && |Sends(r.grant.log)| == |r.pairs|
                    && forall j :: 0 <= j < |r.pairs| ==> OnRoster(mid.players, r.pairs[j].player) && Sends(r.grant.log)[j] == GrantMessage(mid, r.pairs[j]))
              && (Settled(after, r.pairs) ==>
                    && |Sends(r.revert.log)| == |r.pairs|
                    && forall j :: 0 <= j < |r.pairs| ==> r.pairs[j].standIn in after.infos && Sends(r.revert.log)[j] == RevertMessage(after, r.pairs[j]))
  {
    if NeedsFix(g) {
      GrantPairs(mid, 0, exiled);
      if mid.host.Some? {
        GrantSends(mid, 0, exiled);
      }
      if Settled(after, GrantFrom(mid, 0, exiled).pairs) {
        RevertSends(after, GrantFrom(mid, 0, exiled).pairs);
      }
    }
  }

  /** Roster entry `j` cannot stand in for anyone. */
  predicate Inactive(g: Game, j: int, exiled: Option<NetId>)
    requires Spawned(g) && 0 <= j < |g.players|
  {
    var p := g.players[j];
    p.character.None? || !Active(g.infos[p.character.value]) || p.character == exiled
  }

  /** Stand-ins are not distinct: when the first active, non-exiled roster
      entry is neither of two players, both get that same stand-in. */
  lemma StandInShared(g: Game, a: NetId, b: NetId, exiled: Option<NetId>, k: int)
    requires Spawned(g) && 0 <= k < |g.players| && Eligible(g, k, a, exiled) && Eligible(g, k, b, exiled)
    requires forall j :: 0 <= j < k ==> Inactive(g, j, exiled)
    ensures StandIn(g, a, exiled) == StandIn(g, b, exiled) == g.players[k].character
  {
    var ia :| 0 <= ia < |g.players| && Eligible(g, ia, a, exiled) && g.players[ia].character == StandIn(g, a, exiled)
              && forall j :: 0 <= j < ia ==> !Eligible(g, j, a, exiled);
    var ib :| 0 <= ib < |g.players| && Eligible(g, ib, b, exiled) && g.players[ib].character == StandIn(g, b, exiled)
              && forall j :: 0 <= j < ib ==> !Eligible(g, j, b, exiled);
    assert ia < k ==> Inactive(g, ia, exiled);
    assert ib < k ==> Inactive(g, ib, exiled);
  }
}

=== FILE: state.dfy ===
/** The replicated state of one running match: the client roster, the host,
    and the PlayerInfo record of every spawned character. */
module GameState {

  datatype Option<+T> = None | Some(value: T)

  /** Network identifier of a character, unique within a game. */
  type NetId = nat

  /** Identifier of a client connection. */
  type ClientId = int

  datatype Role =
    | Crewmate | Impostor | Scientist | Engineer | GuardianAngel | Shapeshifter
    | CrewmateGhost | ImpostorGhost | Noisemaker | Phantom | Tracker

  datatype DeathReason = Exile | Kill | Disconnect

  datatype Outfit = Outfit(name: string, color: nat, hatId: string, petId: string, skinId: string)

  /** What every client renders for a character. `isImpostor` is the team
      flag the server reads; nothing in this model writes it. */
  datatype PlayerInfo = PlayerInfo(
    roleType: Option<Role>,
    isImpostor: bool,
    isDead: bool,
    disconnected: bool,
    lastDeathReason: Option<DeathReason>,
    protectedBy: Option<NetId>,
    outfit: Outfit)

  /** A connected client and the character it controls, if spawned. */
  datatype ClientPlayer = ClientPlayer(id: ClientId, character: Option<NetId>)

  datatype Game = Game(players: seq<ClientPlayer>, host: Option<ClientId>, infos: map<NetId, PlayerInfo>)

  /** Death as the lifecycle transitions apply it: the dead flag and the
      reason are set and nothing else about the character changes. */
  function Die(info: PlayerInfo, reason: DeathReason): (r: PlayerInfo)
    ensures r.isDead && r.lastDeathReason == Some(reason)
    ensures r.(isDead := info.isDead, lastDeathReason := info.lastDeathReason) == info
  {
    info.(isDead := true, lastDeathReason := Some(reason))
  }

  /** Protection as the lifecycle transitions apply it: the protector is
      recorded and nothing else about the character changes. */
  function Protect(info: PlayerInfo, protector: NetId): (r: PlayerInfo)
    ensures r.protectedBy == Some(protector)
    ensures r.(protectedBy := info.protectedBy) == info
  {
    info.(protectedBy := Some(protector))
  }

  /** Every character on the roster has its PlayerInfo. */
  predicate Spawned(g: Game)
  {
    forall i :: 0 <= i < |g.players| && g.players[i].character.Some? ==> g.players[i].character.value in g.infos
  }

  /** The object graph the server maintains: spawned characters have info,
      client ids are distinct, a character belongs to at most one client,
      and the host is one of the clients. */
  predicate Valid(g: Game)
  {
    && Spawned(g)
    && (forall i, j :: 0 <= i < j < |g.players| ==> g.players[i].id != g.players[j].id)
    && (forall i, j :: 0 <= i < j < |g.players| && g.players[i].character.Some? ==>
          g.players[i].character != g.players[j].character)
    && (g.host.Some? ==> exists i :: 0 <= i < |g.players| && g.players[i].id == g.host.value)
  }

  predicate IsHost(g: Game, p: ClientPlayer)
  {
    g.host == Some(p.id)
  }

  /** Some client on `ps` controls character `c`. */
  predicate OnRoster(ps: seq<ClientPlayer>, c: NetId)
  {
    exists i :: 0 <= i < |ps| && ps[i].character == Some(c)
  }

  /** The character of the first client on `ps` with id `id`. */
  function ClientCharacter(ps: seq<ClientPlayer>, id: ClientId): (r: Option<NetId>)
    ensures r.Some? ==> exists i :: 0 <= i < |ps| && ps[i].id == id && ps[i].character == r
    ensures (forall i :: 0 <= i < |ps| ==> ps[i].id != id) ==> r.None?
  {
    if ps == [] then None
    else if ps[0].id == id then ps[0].character
    else
      var r := ClientCharacter(ps[1..], id);
      assert r.Some? ==> exists i :: 1 <= i < |ps| && ps[i].id == id && ps[i].character == r by {
        if r.Some? {
          var k :| 0 <= k < |ps[1..]| && ps[1..][k].id == id && ps[1..][k].character == r;
          assert ps[k + 1] == ps[1..][k];
        }
      }
      r
  }

  /** The host's character; None when there is no host or it has not spawned. */
  function HostCharacter(g: Game): Option<NetId>
  {
    match g.host
    case None => None
    case Some(h) => ClientCharacter(g.players, h)
  }

  /** Connection lookup: the id of the first client on `ps` that controls
      `c`, or None when no client controls it. */
  function Route(ps: seq<ClientPlayer>, c: NetId): (r: Option<ClientId>)
    ensures r.Some? <==> OnRoster(ps, c)
    ensures r.Some? ==> exists i :: 0 <= i < |ps| && ps[i].character == Some(c) && ps[i].id == r.value
  {
    if ps == [] then None
    else if ps[0].character == Some(c) then Some(ps[0].id)
    else
      var r := Route(ps[1..], c);
      assert OnRoster(ps[1..], c) <==> OnRoster(ps, c) by {
        if OnRoster(ps, c) {
          var k :| 0 <= k < |ps| && ps[k].character == Some(c);
          assert k > 0 && ps[1..][k - 1] == ps[k];
        }
        if OnRoster(ps[1..], c) {
          var k :| 0 <= k < |ps[1..]| && ps[1..][k].character == Some(c);
          assert ps[k + 1] == ps[1..][k];
        }
      }
      assert r.Some? ==> exists i :: 1 <= i < |ps| && ps[i].character == Some(c) && ps[i].id == r.value by {
        if r.Some? {
          var k :| 0 <= k < |ps[1..]| && ps[1..][k].character == Some(c) && ps[1..][k].id == r.value;
          assert ps[k + 1] == ps[1..][k];
        }
      }
      r
  }

  /** In a valid game a character is routed to the one client that controls it. */
  lemma RouteToOwner(g: Game, i: int)
    requires Valid(g) && 0 <= i < |g.players| && g.players[i].character.Some?
    ensures Route(g.players, g.players[i].character.value) == Some(g.players[i].id)
  {
  }

  /** In a valid game the host character is the one its client controls. */
  lemma HostCharacterOf(g: Game, i: int)
    requires Valid(g) && 0 <= i < |g.players| && g.host == Some(g.players[i].id)
    ensures HostCharacter(g) == g.players[i].character
  {
    ClientCharacterOf(g.players, i);
  }

  lemma {:induction false} ClientCharacterOf(ps: seq<ClientPlayer>, i: int)
    requires 0 <= i < |ps|
    requires forall a, b :: 0 <= a < b < |ps| ==> ps[a].id != ps[b].id
    ensures ClientCharacter(ps, ps[i].id) == ps[i].character
    decreases i
  {
    if i > 0 {
      assert ps[0].id != ps[i].id;
      assert ps[1..][i - 1] == ps[i];
      ClientCharacterOf(ps[1..], i - 1);
    }
  }

  /** `g2` differs from `g1` at most in the Disconnected flags: every read the
      role engine makes (roles, team, death, outfit, roster, host) agrees. */
  predicate AgreeButDisconnected(g1: Game, g2: Game)
  {
    && g1.players == g2.players
    && g1.host == g2.host
    && g1.infos.Keys == g2.infos.Keys
    && forall c :: c in g1.infos ==> g1.infos[c].(disconnected := false) == g2.infos[c].(disconnected := false)
  }
}
